=== FILE: README.md ===
# giffy in Dafny

A model of the decoding core of giffy, a small GIF decoder written in Rust. It covers two parts:

- **The LZW decompressor** (`src/decompressor.rs`). `CodeReader::read` takes codes of 1 to 16 bits from a byte slice, least significant bit first. `Decompressor` keeps its string table as `Range`/`Single` entries over one flat list of colour indices. It handles the clear and end codes, the "early change" growth of the code width and the 12-bit cap.
- **The GIF block parser.** `Parser::parse` (`src/parser.rs`) and `Decoder::decode` (`src/lib.rs`) read the following parts:
  - the header;
  - the logical screen descriptor and the global colour table;
  - image descriptors, local colour tables and image data;
  - data sub-blocks;
  - the graphic control, comment, plain text and application extensions;
  - the trailer.

  The two readers are the same state machine. `Parser` hands colour tables out as RGB triples and `Decoder` hands them out as raw bytes. The model is one parser, `GifParser.ParseWith`, with a `TableStyle` parameter. `GifParser.Parse` and `GifParser.Decode` are its two instances.

Everything works on `seq<byte>`. A reader takes the remaining input and returns `Result<Parsed<T>, ParseError>`, where `Parsed` holds the value and the rest of the input. The Rust error strings become constructors of `ParseError` (parser) and `DecodeError` (decompressor).

Each operation is paired with a partner:

- `Lzw.Decompress` with a string-dictionary formulation of the same decoder (`LzwReference.Decode`): a list of strings looked up by code instead of ranges into one flat sequence, under the same rules (a literal first after each clear code, a clear code demanded at the 12-bit cap). It is proved equal to it on every input. This shows that the range bookkeeping is right; it does not show conformance to some other LZW decoder.
- The code reader with the bit-level meaning of the stream (`Bits.BitsValue`).
- Every GIF reader with a writer (`GifWriter`). Round-trip lemmas show that the reader gives back what was written and leaves the bytes after it unread.
- `Parse` with `Decode`: the two accept the same streams, fail with the same error, and differ only by the colour-table conversion.
- The data sub-block reader with the encoding of the chunks it read. This fixes the number of bytes consumed and the data returned. Any truncation of the encoding is rejected.

Files:

| file | contents |
|---|---|
| results.dfy | `Option` and `Result` |
| bits.dfy | powers of two, shifts, bit fields, the little-endian bit stream |
| code_reader.dfy | `CodeReader` and its own test vector |
| lzw.dfy | `Decompressor`: reset, table growth, one decoding step, rounds, `decompress` |
| lzw_reference.dfy | the string-dictionary formulation of the decoder and the equivalence proof |
| lzw_findings.dfy | the decompressor as written versus the corrected one |
| byte_cursor.dfy | `read_bytes`, `read_u8`, `read_u16` |
| utf8.dfy | UTF-8 well-formedness (the check `std::str::from_utf8` performs) |
| gif_format.dfy | the GIF data types, colour tables, packed bytes |
| sub_blocks.dfy | data sub-blocks |
| gif_blocks.dfy | the block readers |
| gif_parser.dfy | the block loop and `parse` / `decode` |
| gif_writer.dfy | the writer and the round-trip lemmas |
| gif_styles.dfy | `Parser` versus `Decoder` |

## Model

| member | source | states |
|---|---|---|
| CodeReading.NewReader | src/decompressor.rs:193-199 | A new reader stands at bit 0 of the data. |
| CodeReading.ReadChunks | src/decompressor.rs:211-241 | Each pass of the read loop ORs the next unread bits of the current byte above the bits already taken. Over the loop these form the next `bits` bits of the stream. The loop fails exactly when the data ends with bits still owed. |
| CodeReading.Read | src/decompressor.rs:201-244 | `read(n)` succeeds iff the cursor is still inside the data and `n` more bits are available. A successful read returns the next `n` stream bits, least significant first, as a number below 2^n. It advances the bit position by exactly `n` and keeps `remaining_bits` in 1..8. |
| CodeReading.ReadCodesMeaning | src/decompressor.rs:201-244 | Successive reads of positive widths that fit the data all succeed. Together they return consecutive runs of stream bits. |
| CodeReaderExamples.ReaderTestVector | src/decompressor.rs:253-274 | The code reader test of src/decompressor.rs holds: reading the eleven test bytes at widths 3,3,3,4,4,7,8,8,8,16,3,9,12 gives 5,3,5,14,10,46,93,93,245,26294,6,214,1350. The reads end exactly at the last bit. |
| Lzw.New | src/decompressor.rs:12-21 | A new decompressor has clear code 2^min, code width min+1 and an empty table. |
| Lzw.Reset | src/decompressor.rs:23-39 | After `reset` the code width is min+1 and the table has exactly 2^min+2 entries. Entry i stands for [i] for every i < 2^min; then come the clear and end codes. The resulting state is `Valid`. |
| Lzw.Entry | src/decompressor.rs:53-56 | Every code with a `Range` entry stands for a non-empty string of colour indices, each below the clear code. |
| Lzw.AddEntry | src/decompressor.rs:87-97 | Adding an entry fails iff the table already holds 2^w−1 codes at width 12. Otherwise the entry is the new last code and every earlier code keeps its string. The width grows by one exactly when the table held 2^w−1 codes (early change). `Valid` is preserved, so the width never exceeds 12. |
| Lzw.ExpectClearCode | src/decompressor.rs:148-161 | Succeeds iff the next code at the current width can be read and equals the clear code. The reader then moves past it. |
| Lzw.Extend | src/decompressor.rs:128-138 | After emitting, the new entry is added and decoding continues with the code just read as `prev`, exactly when the entry fits. At the 12-bit cap the entry is dropped and the next code must be the clear code: the round then ends asking for another round, with the reader just past that code. Missing bits there give `MissingClearCode`, and any other code gives `InvalidClearCode`. |
| Lzw.KnownCode | src/decompressor.rs:73-99 | A code in the table emits its string and adds `prev`'s string extended by the first index of that string. Decoding goes on whenever `prev` has an entry and the new entry fits. An out-of-range `prev` is `PrevOutOfRange` and a control-code `prev` is `InvalidPrevCode`. |
| Lzw.NewCode | src/decompressor.rs:113-141 | A code past the table emits `prev`'s string extended by its own first index, and that same string becomes the new entry (the KwKwK case). Decoding goes on whenever `prev` has an entry and the new entry fits. An out-of-range `prev` is `PrevOutOfRange` and a control-code `prev` is `InvalidPrevCode`. |
| Lzw.DecodeStep | src/decompressor.rs:63-144 | One pass of the loop has four outcomes. Running out of bits ends the round without another. The clear code ends it with another. The end code ends it without another. Any other code emits the string of the code read (or of the new entry) and grows the table by `prev`'s string plus the first emitted index. In the corrected decoder a code beyond the next free slot is `CodeBeyondTable`. |
| Lzw.Loop | src/decompressor.rs:63-145 | A finished loop keeps the earlier output as a prefix and emits only colour indices. It stays on the same data and has consumed a code when another round follows. |
| Lzw.DecompressUntilClear | src/decompressor.rs:41-62 | Running out of bits at a round's first code ends decoding successfully with the output so far. A first code that stands for a string (in a fresh table, a literal index) is emitted and becomes `prev` of the loop. Any other first code gives `InvalidCode`. |
| Lzw.Rounds | src/decompressor.rs:169-176 | Each clear code resets the table and decoding goes on, appending to the same output. The output only grows and holds only indices below 2^min. |
| Lzw.DecompressWith | src/decompressor.rs:163-179 | Decoding succeeds only if the stream opens with the clear code at width min+1. The output then holds only colour indices below 2^min. |
| Lzw.Decompress | src/decompressor.rs:163-179 | The decompressor with codes beyond the next free slot rejected: the stream opens with a clear code, and every output index is below 2^min. |
| Lzw.DecompressAsWritten | src/decompressor.rs:113-141 | The decompressor as written, which decodes a code beyond the next free slot as if it named that slot. It has the same opening and output bounds. |
| LzwReference.DecompressIsReference | src/decompressor.rs:41-179 | On every input and every minimum code size in 2..11, the range-table decompressor gives the same result as the same decoder written over a dictionary of strings, with the same cap and clear-code rules. This covers output, success and error. |
| LzwFindings.AsWrittenAgrees | src/decompressor.rs:113-141 | The decompressor as written and the corrected one agree on every input, except inputs the corrected one rejects for a code beyond the table. |
| LzwFindings.AsWrittenAcceptsSkippedSlot | src/decompressor.rs:113-141 | As written, the stream [196, 11] at minimum size 2 (codes 4 0 7 5) decodes to [0, 0, 0], although code 7 names no entry. |
| LzwFindings.CorrectedRejectsSkippedSlot | src/decompressor.rs:113-141 | The corrected decompressor rejects the same stream with `CodeBeyondTable(7)`. |
| LzwFindings.CorrectedAcceptsNextSlot | src/decompressor.rs:113-141 | The corrected decompressor still decodes the next free code: [132, 11] (codes 4 0 6 5) gives [0, 0, 0]. |
| ByteCursor.ReadBytes | src/parser.rs:193-197 | Reading n bytes succeeds iff n bytes remain. It returns exactly those bytes followed by the rest; otherwise it is an unexpected end of input. |
| ByteCursor.ReadU8 | src/parser.rs:199-203 | One byte if any remains, else an unexpected end of input. |
| ByteCursor.ReadU16 | src/parser.rs:205-209 | Two bytes, combined little-endian as b0 + 256·b1, else an unexpected end of input. |
| ByteCursor.EncodeU16 | src/parser.rs:205-209 | The two little-endian bytes of a 16-bit value. |
| ByteCursor.ReadU16RoundTrip | src/parser.rs:205-209 | `read_u16` gives back any 16-bit value written little-endian. |
| ByteCursor.ReadU8RoundTrip | src/parser.rs:199-203 | `read_u8` gives back the byte written and leaves the rest. |
| ByteCursor.ReadBytesRoundTrip | src/parser.rs:193-197 | `read_bytes` gives back the bytes written and leaves the rest. |
| ByteCursor.U16At | src/parser.rs:205-209 | The 16-bit little-endian field at an offset of a byte run. |
| ByteCursor.U16AtIsRead | src/parser.rs:205-209 | Taking a field from a run that was read at once equals calling `read_u16` at that offset. |
| Utf8.EncodeIsUtf8 | src/parser.rs:401-405 | Every sequence of Unicode scalar values encoded as UTF-8 passes the well-formedness check that `from_utf8` applies to comments and text. |
| Utf8.AsciiIsUtf8 | src/parser.rs:229-242 | Any ASCII bytes, such as "GIF" and "89a", are well-formed UTF-8. |
| Utf8.EncodedScalarLength | src/parser.rs:401-405 | An encoded scalar value is one well-formed character of 1 to 4 bytes. |
| GifFormat.Triples | src/parser.rs:282-292 | `chunks_exact(3)`: one colour per whole triple, in order. The bytes of the colours are the input without its incomplete tail. |
| SubBlocks.ReadDataSubBlocks | src/parser.rs:351-369 | Reading sub-blocks either consumes input or fails with an unexpected end of input. |
| SubBlocks.EncodeSubBlocks | src/parser.rs:351-369 | Sub-blocks take one size byte per chunk, the chunk bytes and one terminator byte. |
| SubBlocks.SubBlocksRoundTrip | src/parser.rs:351-369 | Reading encoded sub-blocks returns the chunks joined in order and stops right after the zero-length terminator. |
| SubBlocks.SubBlocksReadEncoded | src/parser.rs:351-369 | Every successful read consumed exactly the encoding of the chunks it read, which is Σ(Lᵢ+1)+1 bytes. |
| SubBlocks.SubBlocksReadJoined | src/lib.rs:359-377 | The data of every successful read is the payloads of the blocks it read, joined in order up to the first zero size byte. |
| SubBlocks.SubBlocksTruncated | src/parser.rs:351-369 | Any proper prefix of an encoding is an unexpected end of input. |
| SubBlocks.Chunked | src/parser.rs:351-369 | Any data can be cut into valid sub-block chunks that join back to it. |
| GifBlocks.ReadBlockType | src/parser.rs:211-227 | Reads one byte, plus a label byte after 0x21. It fails only at the end of input. 0x2C is an image, 0x21 with F9/FE/01/FF is the matching extension, 0x3B is the trailer, and anything else is unknown. |
| GifBlocks.ExtensionOf | src/parser.rs:215-221 | Labels F9, FE, 01 and FF name the graphic control, comment, plain text and application extensions, each iff the byte is that label. Any other label is unknown and keeps its byte. |
| GifBlocks.ReadHeader | src/parser.rs:229-242 | Succeeds iff six bytes remain and both halves are UTF-8. The signature and version are exactly those bytes; otherwise it is an unexpected end or `InvalidUtf8`. |
| GifBlocks.ReadColorTable | src/parser.rs:282-292 | A table consumes exactly 3·2^(size+1) bytes. It holds 2^(size+1) colours from consecutive triples (parser) or the raw bytes (decoder). |
| GifBlocks.ReadOptionalTable | src/lib.rs:299-304 | The table is present iff its flag is set, and a missing table consumes nothing. |
| GifBlocks.ReadLogicalScreenDescriptor | src/parser.rs:244-295 | Succeeds iff seven bytes remain and, when the packed byte's flag is set, the global colour table after them can be read; otherwise it is an unexpected end of input. Width and height are the little-endian fields at offsets 0 and 2, the background colour index and aspect ratio are bytes 5 and 6, and the packed byte splits into flag, resolution, sort and size. The global table is the one read after the seven bytes. |
| GifBlocks.ReadImageDescriptor | src/parser.rs:297-321 | Consumes exactly 9 bytes. Left, top, width and height are the little-endian fields at offsets 0, 2, 4 and 6. The packed byte splits into flag, interlace, sort and size (bits 4–3 are reserved). |
| GifBlocks.ReadTableBasedImage | src/parser.rs:323-349 | Succeeds iff the descriptor, the local table when its flag is set, one size byte and the sub-blocks can all be read in turn. The descriptor is the one read at the start, the minimum code size is the byte after the table, and the data is the sub-blocks that follow. A failure is an unexpected end of input. |
| GifBlocks.ReadGraphicControlExtension | src/parser.rs:407-445 | Succeeds iff six bytes remain, the size byte is 4 and the terminator is 0. Disposal 0–3 maps to the named methods and 4–7 to `Undefined`. The user-input and transparency flags are bits 1 and 0 for every disposal code. It then reads the delay (u16) and the transparent index. A wrong size is `InvalidGraphicControlBlockSize` and a non-zero terminator is `MissingBlockTerminator`. |
| GifBlocks.DisposalOf | src/parser.rs:416-424 | Codes 0–3 are the named disposal methods and 4–7 are `Undefined`. |
| GifBlocks.ReadApplicationExtension | src/parser.rs:371-399 | Succeeds iff the size byte is 11, the 8-byte identifier and 3-byte authentication code are UTF-8 and the sub-blocks after them can be read. A wrong size is `InvalidApplicationBlockSize`; non-UTF-8 identifier or code is `IdentifierNotUtf8` (the Rust code panics). |
| GifBlocks.ReadCommentExtension | src/parser.rs:401-405 | The comment is the joined sub-block data, accepted iff it is UTF-8, else `InvalidUtf8`. |
| GifBlocks.ReadPlainTextExtension | src/parser.rs:447-480 | Succeeds iff the size byte is 12 and the sub-blocks after the twelve field bytes read as UTF-8 text. The grid left, top, width and height are the u16 fields at offsets 1, 3, 5, 7, and the cell width and height and the two colour indexes are bytes 9–12. A wrong size is `InvalidPlainTextBlockSize` and non-UTF-8 text is `InvalidUtf8`. |
| GifParser.ReadDataBlock | src/parser.rs:146-182 | The dispatch. For an image introducer and for each known extension label, the result is Ok exactly when that block's reader succeeds. On Ok, the block wraps that reader's value and the leftover input is the reader's. Otherwise the reader's error is returned unchanged. An unknown introducer is `UnknownBlockType` and an unknown label is `UnknownExtensionType`. |
| GifParser.ParseBlocks | src/parser.rs:144-184 | The block loop stops at the trailer and leaves what follows unread. An error from reading the introducer or from a block's reader is the loop's error. An introducer other than 0x2C, 0x21 and 0x3B gives `UnknownBlockType` and an extension label other than F9, FE, 01 and FF gives `UnknownExtensionType`. Empty input is an unexpected end. |
| GifParser.ParseBlocksStep | src/parser.rs:144-184 | A block other than the trailer is followed by the rest of the loop, so blocks are kept in stream order. |
| GifParser.ParseBlocksParts | src/parser.rs:144-184 | The converse of `ParseBlocksStep`: a successful loop that does not start at the trailer is made of the block its reader read, followed by the blocks the rest of the loop read. |
| GifParser.ParseWith | src/parser.rs:136-191 | A parsed file starts with "GIF" and a UTF-8 version, and its header is those six bytes. Its descriptor is what the screen reader reads after the header, and its blocks are what the block loop reads after the descriptor. Behind a valid "GIF" header, an error of the descriptor or of the block loop is the file's error. Fewer than six bytes is an unexpected end of input, and a well-formed header whose signature is not "GIF" is `NotAGif`. |
| GifParser.Parse | src/parser.rs:136-191 | `Parser::parse`: a parsed file starts with "GIF" and its header is the first six bytes; a well-formed header with another signature is `NotAGif`; the global colour table, when present, is handed out as RGB colours. |
| GifParser.Decode | src/lib.rs:150-211 | `Decoder::decode`: the same header rules as `Parse`; the global colour table, when present, is handed out as its raw bytes. |
| GifWriter.HeaderRoundTrip | src/parser.rs:229-242 | Writing a header and reading it back gives it back. |
| GifWriter.ColorTableRoundTrip | src/parser.rs:282-292 | A colour table of the size its descriptor states is read back unchanged. |
| GifWriter.OptionalTableRoundTrip | src/parser.rs:282-292 | A table present iff its flag is set is read back unchanged. |
| GifWriter.ScreenUnpacks | src/parser.rs:266-270 | Unpacking the packed byte that the writer builds gives back every field. |
| GifWriter.ScreenRoundTrip | src/parser.rs:244-295 | A logical screen descriptor with its global table is read back unchanged. |
| GifWriter.ImageUnpacks | src/parser.rs:314-318 | The image descriptor's packed fields unpack to what was packed. |
| GifWriter.DescriptorRoundTrip | src/parser.rs:297-321 | An image descriptor is read back unchanged. |
| GifWriter.DataRoundTrip | src/parser.rs:351-369 | Any data written as sub-blocks is read back unchanged. |
| GifWriter.ImageRoundTrip | src/parser.rs:323-349 | A table-based image (descriptor, local table, LZW minimum code size and data) is read back unchanged. |
| GifWriter.ControlUnpacks | src/parser.rs:415-431 | The graphic control packed fields unpack to what was packed, including `Undefined` disposal. |
| GifWriter.ControlRoundTrip | src/parser.rs:407-445 | A graphic control extension is read back unchanged. |
| GifWriter.ApplicationRoundTrip | src/parser.rs:371-399 | An application extension with UTF-8 identifier and code is read back unchanged. |
| GifWriter.CommentRoundTrip | src/parser.rs:401-405 | A UTF-8 comment is read back unchanged. |
| GifWriter.PlainTextRoundTrip | src/parser.rs:447-480 | A plain text extension with UTF-8 text is read back unchanged. |
| GifWriter.IntroducerRoundTrip | src/parser.rs:211-227 | Each block kind's introducer and label are recognised as that kind. |
| GifWriter.BlockRoundTrip | src/parser.rs:146-182 | A written block is announced as its own kind, and the dispatch reads it back unchanged. |
| GifWriter.BlocksRoundTrip | src/parser.rs:144-184 | Written blocks followed by the trailer are read back in order, and the loop stops at the trailer. |
| GifWriter.FileRoundTrip | src/parser.rs:136-191 | Parsing a written file gives it back, whatever follows the trailer. |
| GifWriter.ParseAndDecodeRoundTrip | src/lib.rs:150-211 | `parse` and `decode` each give back a file written with tables in their own form. |
| GifStyles.ColorTableStyles | src/lib.rs:299-304 | The raw table `Decoder` reads, cut into triples, is the table `Parser` reads from the same bytes. |
| GifStyles.OptionalTableStyles | src/lib.rs:299-304 | The same holds for a table behind a flag. |
| GifStyles.ScreenStyles | src/lib.rs:261-307 | The two logical screen descriptor readers agree up to the table form. |
| GifStyles.ImageStyles | src/lib.rs:335-357 | The two table-based image readers agree up to the table form. |
| GifStyles.DataBlockStyles | src/lib.rs:159-204 | The two dispatches agree block by block up to the table form. |
| GifStyles.BlocksStyles | src/lib.rs:157-205 | The two block loops agree on every input up to the table form. |
| GifStyles.ParseIsDecodeWithColors | src/lib.rs:150-211 | `decode` succeeds iff `parse` succeeds. They fail with the same error, and `parse`'s file is `decode`'s with each table cut into RGB triples. |

## Left out

- `load` (src/lib.rs:9-18), src/main.rs and examples/example.rs: file I/O, printing, BMP output and parallel writes, with no decoding logic.
- Reading from a `File` or `Read` source: the model reads from a byte sequence, and an I/O error other than running out of input is not modelled.
- The pixel aspect ratio is kept as its raw byte; the floating-point `(val + 15) / 64` is not modelled.
- Error messages: each error string is one constructor of `ParseError` or `DecodeError`, without its text.
- `read_u16` reinterprets two bytes in host order (`mem::transmute`). The model fixes it to little-endian, as GIF requires and as it behaves on the usual hosts.
- Panics become errors. An invalid UTF-8 application identifier or authentication code (`unwrap`) is `IdentifierNotUtf8`. An out-of-range `prev` in the decompressor (an index panic) is `PrevOutOfRange`.
- The "invalid disposal method" error of the graphic control extension cannot occur, since every 3-bit value is covered, so it has no constructor.
- The minimum LZW code size is restricted to 2..11 (`Lzw.SupportedMinCodeSize`). src/decompressor.rs never checks it: a size of 0 or 1 leaves no room below the end code in the initial width, and 12 or more overflows the cap.
- The decompressor test vector (src/decompressor.rs:277-402, 22 bytes decoding to 100 indices) is not replayed in the model. Unfolding roughly seventy decoding steps symbolically is far beyond what the verifier can do in reasonable time. The reader's own test vector is replayed (`CodeReaderExamples.ReaderTestVector`).
- src/util.rs's `Color` becomes `GifFormat.Color`, a plain RGB triple; its accessors are not modelled.
- The writer (`GifWriter`) and the string-dictionary decoder (`LzwReference`) are not part of giffy. They are the partners the round-trip and equivalence lemmas are stated against.
- UTF-8 is checked by a predicate (`Utf8.IsUtf8`) following Table 3-7 of the Unicode Standard. It has no decoder to `String`, since the text stays as its bytes.

Where the behaviour differs from a plain reading of the GIF89a format, the model follows the code:

- Once the table holds 4095 entries at width 12 (src/decompressor.rs:87-90, :128-131), the entry that would take code 4095 is not added and the next code must be a clear code; code 4095 is never defined. The format would allow decoding to continue with a full table.
- The code requires the first code after a clear code to be a literal, so a clear code followed directly by the end code is an error.

## Findings

| source | as written | input that shows it | evidently intended | confidence | as-written member | corrected member |
|---|---|---|---|---|---|---|
| src/decompressor.rs:113-141 | Every code at or past the table's end takes the KwKwK path, which is valid only for the next free code. A code beyond it is decoded as if it named that slot, and then becomes `prev`. | Minimum size 2, bytes [196, 11] (codes 4 0 7 5): the table holds 6 entries when 7 arrives, yet decoding returns [0, 0, 0]. | A code greater than the next free slot is an error. | not executed | LzwFindings.AsWrittenAcceptsSkippedSlot | LzwFindings.CorrectedRejectsSkippedSlot |

`Lzw.Decompress` is the corrected decoder, and the equivalence with the string-dictionary decoder (`LzwReference.DecompressIsReference`) is proved for it. `LzwFindings.AsWrittenAgrees` shows that the two differ only on inputs the corrected decoder rejects for this reason.

=== FILE: bits.dfy ===
/** Bytes, powers of two and the little-endian bit numbering the GIF format uses. */
module Bits {

  /** An 8-bit unsigned value (Rust `u8`). */
  type byte = b: int | 0 <= b < 256

  function Pow2(n: nat): (p: nat)
    ensures p >= 1
  {
    if n == 0 then 1 else 2 * Pow2(n - 1)
  }

  lemma {:induction false} Pow2Add(a: nat, b: nat)
    ensures Pow2(a + b) == Pow2(a) * Pow2(b)
  {
    if a > 0 {
      Pow2Add(a - 1, b);
    }
  }

  lemma {:induction false} Pow2Monotone(a: nat, b: nat)
    requires a <= b
    ensures Pow2(a) <= Pow2(b)
  {
    if a < b {
      Pow2Monotone(a, b - 1);
    }
  }

  /** `v >> k`. */
  function Shr(v: nat, k: nat): nat
  {
    if k == 0 then v else Shr(v / 2, k - 1)
  }

  /** `v & ((1 << width) - 1)`: the low `width` bits of `v`. */
  function LowBits(v: nat, width: nat): (r: nat)
    ensures r < Pow2(width)
  {
    if width == 0 then 0 else v % 2 + 2 * LowBits(v / 2, width - 1)
  }

  /** The `width`-bit field of `v` whose least significant bit is bit `lo`:
      what `(v & mask) >> lo` extracts. */
  function Field(v: nat, lo: nat, width: nat): (f: nat)
    ensures f < Pow2(width)
  {
    LowBits(Shr(v, lo), width)
  }

  /** Bit `k` of a byte sequence, counting from the least significant bit of
      the first byte (the GIF code stream order). */
  function BitAt(data: seq<byte>, k: nat): (b: nat)
    requires k < 8 * |data|
    ensures b < 2
  {
    Field(data[k / 8], k % 8, 1)
  }

  /** The `n` stream bits starting at bit `p`, read least significant first. */
  function BitsValue(data: seq<byte>, p: nat, n: nat): (v: nat)
    requires p + n <= 8 * |data|
    decreases n
  {
    if n == 0 then 0 else BitAt(data, p) + 2 * BitsValue(data, p + 1, n - 1)
  }

  lemma {:induction false} BitsValueBound(data: seq<byte>, p: nat, n: nat)
    requires p + n <= 8 * |data|
    ensures BitsValue(data, p, n) < Pow2(n)
    decreases n
  {
    if n > 0 {
      BitsValueBound(data, p + 1, n - 1);
    }
  }

  /** Reading `a + b` bits is reading `a` bits and then `b` more bits placed above them. */
  lemma BitsValueSplit(data: seq<byte>, p: nat, a: nat, b: nat)
    requires p + a + b <= 8 * |data|
    ensures BitsValue(data, p, a + b) == BitsValue(data, p, a) + Pow2(a) * BitsValue(data, p + a, b)
  {
    BitsValueSplitAt(data, p, a, b, p + a, a + b);
  }

  /** `BitsValueSplit` with the end of the first run `m` and the total
      length `n` named, so that the induction keeps them fixed. */
  lemma {:induction false} BitsValueSplitAt(data: seq<byte>, p: nat, a: nat, b: nat, m: nat, n: nat)
    requires m == p + a && n == a + b && p + n <= 8 * |data|
    ensures BitsValue(data, p, n) == BitsValue(data, p, a) + Pow2(a) * BitsValue(data, m, b)
    decreases a
  {
    if a > 0 {
      BitsValueStep(data, p, n);
      BitsValueStep(data, p, a);
      BitsValueSplitAt(data, p + 1, a - 1, b, m, n - 1);
      SplitStep(BitAt(data, p), BitsValue(data, p + 1, a - 1), Pow2(a - 1), Pow2(a),
                BitsValue(data, m, b), BitsValue(data, p + 1, n - 1));
    }
  }

  /** The first bit of a run and the rest above it. */
  lemma BitsValueStep(data: seq<byte>, p: nat, n: nat)
    requires n > 0 && p + n <= 8 * |data|
    ensures BitsValue(data, p, n) == BitAt(data, p) + 2 * BitsValue(data, p + 1, n - 1)
  {
  }

  lemma SplitStep(bit: int, low: int, half: int, whole: int, rest: int, tail: int)
    requires tail == low + half * rest && whole == 2 * half
    ensures bit + 2 * tail == (bit + 2 * low) + whole * rest
  {
    MulAssoc(2, half, rest);
  }

  lemma MulAssoc(x: int, y: int, z: int)
    ensures x * (y * z) == (x * y) * z
  {
  }

  lemma MulComm(x: int, y: int)
    ensures x * y == y * x
  {
  }

  /** Division with remainder has exactly one answer. */
  lemma DivModUnique(x: int, d: int, q: int, r: int)
    requires d > 0 && 0 <= r < d && x == d * q + r
    ensures x / d == q && x % d == r
  {
    var q', r' := x / d, x % d;
    assert x == d * q' + r';
    if q > q' {
      assert d * q - d * q' == d * (q - q');
      MulAtLeast(d, q - q');
      assert false;
    } else if q < q' {
      assert d * q' - d * q == d * (q' - q);
      MulAtLeast(d, q' - q);
      assert false;
    }
  }

  lemma MulAtLeast(d: int, a: int)
    requires d > 0 && a >= 1
    ensures d * a >= d
  {
    assert d * a == d * (a - 1) + d;
  }

  lemma {:induction false} ShrHalf(v: nat, k: nat)
    ensures Shr(v, k) / 2 == Shr(v, k + 1)
    decreases k
  {
    if k > 0 {
      ShrHalf(v / 2, k - 1);
    }
  }

  /** Dividing by `2 * m` is halving and then dividing by `m`; the remainder
      is made up the same way. */
  lemma HalveDivMod(v: nat, m: nat)
    requires m > 0
    ensures v / (2 * m) == v / 2 / m
    ensures v % (2 * m) == 2 * (v / 2 % m) + v % 2
  {
    var q := v / 2 / m;
    var r := v / 2 % m;
    assert v == 2 * m * q + (2 * r + v % 2) by {
      assert v / 2 == m * q + r;
      MulAssoc(2, m, q);
    }
    DivModUnique(v, 2 * m, q, 2 * r + v % 2);
  }

  /** Shifting right by `k` is dividing by `2^k`. */
  lemma {:induction false} ShrIsDiv(v: nat, k: nat)
    ensures Shr(v, k) == v / Pow2(k)
    decreases k
  {
    if k > 0 {
      ShrIsDiv(v / 2, k - 1);
      HalveDivMod(v, Pow2(k - 1));
    }
  }

  /** Masking off the low `width` bits is taking the remainder by `2^width`. */
  lemma {:induction false} LowBitsIsMod(v: nat, width: nat)
    ensures LowBits(v, width) == v % Pow2(width)
    decreases width
  {
    if width > 0 {
      LowBitsIsMod(v / 2, width - 1);
      HalveDivMod(v, Pow2(width - 1));
    }
  }

  /** A bit field in ordinary arithmetic. */
  lemma FieldIsDivMod(v: nat, lo: nat, width: nat)
    ensures Field(v, lo, width) == v / Pow2(lo) % Pow2(width)
  {
    ShrIsDiv(v, lo);
    LowBitsIsMod(Shr(v, lo), width);
  }

  /** A value that fits in `width` bits is its own low `width` bits. */
  lemma {:induction false} LowBitsSmall(v: nat, width: nat)
    requires v < Pow2(width)
    ensures LowBits(v, width) == v
    decreases width
  {
    if width > 0 {
      LowBitsSmall(v / 2, width - 1);
    }
  }

  /** The bits of one byte, read as a run of the stream, are a field of that byte. */
  lemma {:induction false} BitsValueInByte(data: seq<byte>, i: nat, o: nat, m: nat)
    requires i < |data| && o + m <= 8
    ensures BitsValue(data, 8 * i + o, m) == Field(data[i], o, m)
    decreases m
  {
    if m > 0 {
      BitsValueInByte(data, i, o + 1, m - 1);
      ShrHalf(data[i], o);
      assert BitAt(data, 8 * i + o) == Shr(data[i], o) % 2;
    }
  }

  /** The bytes read as one little-endian number: the first byte is the least
      significant. */
  function LittleEndian(data: seq<byte>): nat
  {
    if |data| == 0 then 0 else data[0] + 256 * LittleEndian(data[1..])
  }

  lemma {:induction false} ShrAdd(v: nat, a: nat, b: nat)
    ensures Shr(v, a + b) == Shr(Shr(v, a), b)
    decreases a
  {
    if a > 0 {
      ShrAdd(v / 2, a - 1, b);
    }
  }

  /** Shifting out the low byte of `lo + 256 * hi` leaves `hi`. */
  lemma ShrLowByte(lo: nat, hi: nat)
    requires lo < 256
    ensures Shr(lo + 256 * hi, 8) == hi
  {
    ShrIsDiv(lo + 256 * hi, 8);
    assert Pow2(8) == 256;
    DivModUnique(lo + 256 * hi, 256, hi, lo);
  }

  /** Shifting `lo + 2^n * hi` right by at most `n` shifts the two parts
      separately. */
  lemma {:induction false} ShrAbove(lo: nat, hi: nat, n: nat, o: nat)
    requires o <= n
    ensures Shr(lo + Pow2(n) * hi, o) == Shr(lo, o) + Pow2(n - o) * hi
    decreases o
  {
    if o > 0 {
      var t := Pow2(n - 1) * hi;
      assert Pow2(n) * hi == 2 * t by {
        MulAssoc(2, Pow2(n - 1), hi);
      }
      HalfOfSum(lo, t);
      ShrAbove(lo / 2, hi, n - 1, o - 1);
      ShrStep(lo + Pow2(n) * hi, lo / 2 + t, o);
      ShrStep(lo, lo / 2, o);
    }
  }

  lemma ShrStep(v: nat, half: nat, o: nat)
    requires o > 0 && half == v / 2
    ensures Shr(v, o) == Shr(half, o - 1)
  {
  }

  lemma HalfOfSum(a: nat, t: nat)
    ensures (a + 2 * t) / 2 == a / 2 + t
    ensures (a + 2 * t) % 2 == a % 2
  {
    DivModUnique(a + 2 * t, 2, a / 2 + t, a % 2);
  }

  /** Below bit 8, the bits of `lo + 256 * hi` are those of `lo`. */
  lemma BitOfLowByte(lo: nat, hi: nat, o: nat)
    requires lo < 256 && o < 8
    ensures Shr(lo + 256 * hi, o) % 2 == Shr(lo, o) % 2
  {
    assert Pow2(8) == 256;
    ShrAbove(lo, hi, 8, o);
    var a := Shr(lo, o);
    var m := Pow2(7 - o) * hi;
    assert Pow2(8 - o) * hi == 2 * m by {
      MulAssoc(2, Pow2(7 - o), hi);
    }
    HalfOfSum(a, m);
  }

  lemma LowBitsOne(v: nat)
    ensures LowBits(v, 1) == v % 2
  {
  }

  /** Stream bit `k` is bit `k` of the little-endian number. */
  lemma {:induction false} BitAtLittleEndian(data: seq<byte>, k: nat)
    requires k < 8 * |data|
    ensures BitAt(data, k) == Shr(LittleEndian(data), k) % 2
    decreases |data|
  {
    var rest := LittleEndian(data[1..]);
    assert LittleEndian(data) == data[0] + 256 * rest;
    LowBitsOne(Shr(data[k / 8], k % 8));
    if k < 8 {
      BitOfLowByte(data[0], rest, k);
    } else {
      BitAtLittleEndian(data[1..], k - 8);
      assert data[1..][(k - 8) / 8] == data[k / 8];
      LowBitsOne(Shr(data[1..][(k - 8) / 8], (k - 8) % 8));
      ShrLowByte(data[0], rest);
      ShrAdd(LittleEndian(data), 8, k - 8);
    }
  }

  /** Reading `n` stream bits at bit `p` takes the `n`-bit field at bit `p` of
      the little-endian number: the code stream is one long integer, least
      significant bit first. */
  lemma {:induction false} BitsValueLittleEndian(data: seq<byte>, p: nat, n: nat)
    requires p + n <= 8 * |data|
    ensures BitsValue(data, p, n) == Field(LittleEndian(data), p, n)
    decreases n
  {
    if n > 0 {
      var y := Shr(LittleEndian(data), p);
      BitsValueLittleEndian(data, p + 1, n - 1);
      BitAtLittleEndian(data, p);
      ShrHalf(LittleEndian(data), p);
      assert LowBits(y, n) == y % 2 + 2 * LowBits(y / 2, n - 1);
    }
  }
}

=== FILE: byte_cursor.dfy ===
/** Reading the GIF byte stream: each reader takes the unread input and
    returns the value read with the input after it (`read_bytes`, `read_u8`
    and `read_u16` of `Parser` in src/parser.rs and of `Decoder` in
    src/lib.rs). Running out of input is an error, never a value. */
module ByteCursor {
  import opened Results
  import opened Bits

  /** The failures of the block parser; src/parser.rs reports them as strings
      (or `std::io::Error`s) whose wording is not modelled. */
  datatype ParseError =
    | UnexpectedEof
    | InvalidUtf8
    | NotAGif
    | UnknownBlockType(introducer: byte)
    | UnknownExtensionType(extensionLabel: byte)
    | InvalidApplicationBlockSize(size: byte)
    | InvalidGraphicControlBlockSize(size: byte)
    | InvalidPlainTextBlockSize(size: byte)
    | MissingBlockTerminator
      // `read_application_extension` panics (`unwrap`) on an identifier or
      // authentication code that is not UTF-8.
    | IdentifierNotUtf8

  /** A value read and the input that follows it. */
  datatype Parsed<+T> = Parsed(value: T, rest: seq<byte>)

  /** `read_bytes` / `read_exact`: the next `n` bytes. */
  function ReadBytes(input: seq<byte>, n: nat): (o: Result<Parsed<seq<byte>>, ParseError>)
    ensures o.Ok? <==> n <= |input|
    ensures o.Ok? ==> |o.value.value| == n && o.value.value + o.value.rest == input
    ensures o.Err? ==> o.error == UnexpectedEof
  {
    if |input| < n then Err(UnexpectedEof) else Ok(Parsed(input[..n], input[n..]))
  }

  /** `read_u8`. */
  function ReadU8(input: seq<byte>): (o: Result<Parsed<byte>, ParseError>)
    ensures o.Ok? <==> |input| >= 1
    ensures o.Ok? ==> [o.value.value] + o.value.rest == input
    ensures o.Err? ==> o.error == UnexpectedEof
  {
    var p :- ReadBytes(input, 1);
    Ok(Parsed(p.value[0], p.rest))
  }

  /** `read_u16`: two bytes, the first the less significant. It
      reinterprets the two bytes in the host's byte order; this is the
      little-endian reading the GIF format prescribes. */
  function ReadU16(input: seq<byte>): (o: Result<Parsed<nat>, ParseError>)
    ensures o.Ok? <==> |input| >= 2
    ensures o.Ok? ==> o.value.value < 0x1_0000 && EncodeU16(o.value.value) + o.value.rest == input
    ensures o.Err? ==> o.error == UnexpectedEof
  {
    var p :- ReadBytes(input, 2);
    var v := (p.value[0] as int) + 256 * (p.value[1] as int);
    assert EncodeU16(v) == p.value;
    Ok(Parsed(v, p.rest))
  }

  /** A 16-bit unsigned field as GIF stores it: low byte first; a value
      too wide for the field keeps its low 16 bits. */
  function EncodeU16(v: nat): (s: seq<byte>)
    ensures |s| == 2
    ensures v < 0x1_0000 ==> (s[0] as int) + 256 * (s[1] as int) == v
  {
    [v % 256, v / 256 % 256]
  }

  lemma ReadU16RoundTrip(v: nat, rest: seq<byte>)
    requires v < 0x1_0000
    ensures ReadU16(EncodeU16(v) + rest) == Ok(Parsed(v, rest))
  {
    var input := EncodeU16(v) + rest;
    assert input[..2] == EncodeU16(v) && input[2..] == rest;
  }

  lemma ReadU8RoundTrip(b: byte, rest: seq<byte>)
    ensures ReadU8([b] + rest) == Ok(Parsed(b, rest))
  {
    assert ([b] + rest)[1..] == rest;
  }

  lemma ReadBytesRoundTrip(s: seq<byte>, rest: seq<byte>)
    ensures ReadBytes(s + rest, |s|) == Ok(Parsed(s, rest))
  {
    assert (s + rest)[..|s|] == s && (s + rest)[|s|..] == rest;
  }

  /** The 16-bit field at offset `i` of a run of bytes already read. The
      block readers read their fixed-size fields one after another, which
      fails exactly when fewer bytes remain than the fields take; the model
      reads that run at once and picks the fields out of it. */
  function U16At(b: seq<byte>, i: nat): (v: nat)
    requires i + 2 <= |b|
    ensures v < 0x1_0000 && EncodeU16(v) == b[i..i + 2]
  {
    (b[i] as int) + 256 * (b[i + 1] as int)
  }

  /** Picking a field out of the run agrees with reading it in sequence. */
  lemma U16AtIsRead(b: seq<byte>, i: nat)
    requires i + 2 <= |b|
    ensures ReadU16(b[i..]) == Ok(Parsed(U16At(b, i), b[i + 2..]))
  {
    assert b[i..] == EncodeU16(U16At(b, i)) + b[i + 2..];
    ReadU16RoundTrip(U16At(b, i), b[i + 2..]);
  }
}

=== FILE: code_reader.dfy ===
/** The bit-level code reader of the LZW decompressor (`CodeReader` in
    src/decompressor.rs): codes of up to 16 bits taken from a byte slice,
    least significant bit first, across byte boundaries. */
module CodeReading {
  import opened Results
  import opened Bits

  /** `index` is the current byte; `remainingBits` (always 1..8) is how many of
      its high bits are still unread. */
  datatype CodeReader = CodeReader(data: seq<byte>, index: nat, remainingBits: nat) {

    predicate Valid() {
      1 <= remainingBits <= 8 && 8 * index + 8 - remainingBits <= 8 * |data|
    }

    /** The number of stream bits consumed so far. */
    function Position(): nat
      requires Valid()
    {
      8 * index + 8 - remainingBits
    }

    /** The number of stream bits not yet consumed. */
    function Remaining(): nat
      requires Valid()
    {
      8 * |data| - Position()
    }
  }

  function NewReader(data: seq<byte>): (r: CodeReader)
    ensures r.Valid() && r.data == data && r.Position() == 0
  {
    CodeReader(data, 0, 8)
  }

  /** One pass of the loop in `CodeReader::read`. `byte` holds the unread high
      bits of `data[index]` shifted down, `bits` the bits still owed and `acc`
      the bits already placed in `result`, read from bit `start` on. The
      source ORs each piece into `result`; the pieces occupy disjoint bit
      ranges, so OR is addition here. */
  function ReadChunks(data: seq<byte>, index: nat, remaining: nat, byte: nat,
                      bits: nat, acc: nat, result: nat, start: nat): (o: Option<(nat, CodeReader)>)
    requires index < |data| && 1 <= remaining <= 8
    requires byte == Shr(data[index], 8 - remaining)
    requires start + acc == 8 * index + 8 - remaining
    requires result == BitsValue(data, start, acc)
    ensures o.Some? <==> start + acc + bits <= 8 * |data|
    ensures o.Some? ==>
      && o.value.1.Valid()
      && o.value.1.data == data
      && o.value.1.Position() == start + acc + bits
      && o.value.0 == BitsValue(data, start, acc + bits)
    decreases bits
  {
    if bits >= remaining then
      var mask := if remaining == 8 then byte else LowBits(byte, remaining);
      ChunkStep(data, index, remaining, byte, acc, result, start, remaining);
      WholeByteMask(byte, remaining);
      var result' := result + mask * Pow2(acc);
      var acc' := acc + remaining;
      var bits' := bits - remaining;
      var index' := index + 1;
      if index' < |data| then
        ReadChunks(data, index', 8, data[index'], bits', acc', result', start)
      else if bits' > 0 then
        None
      else
        Some((result', CodeReader(data, index', 8)))
    else if bits != 0 then
      var piece := LowBits(byte, bits);
      ChunkStep(data, index, remaining, byte, acc, result, start, bits);
      Some((result + piece * Pow2(acc), CodeReader(data, index, remaining - bits)))
    else
      Some((result, CodeReader(data, index, remaining)))
  }

  /** Placing the low `take` unread bits of the current byte above the `acc`
      bits read so far gives the next `acc + take` bits of the stream. A full
      byte needs no mask. */
  lemma ChunkStep(data: seq<byte>, index: nat, remaining: nat, byte: nat,
                  acc: nat, result: nat, start: nat, take: nat)
    requires index < |data| && 1 <= take <= remaining <= 8
    requires byte == Shr(data[index], 8 - remaining)
    requires start + acc == 8 * index + 8 - remaining
    requires result == BitsValue(data, start, acc)
    ensures result + LowBits(byte, take) * Pow2(acc) == BitsValue(data, start, acc + take)
  {
    var piece := LowBits(byte, take);
    assert BitsValue(data, start + acc, take) == piece by {
      BitsValueInByte(data, index, 8 - remaining, take);
      assert 8 * index + (8 - remaining) == start + acc;
    }
    assert BitsValue(data, start, acc + take) == result + Pow2(acc) * piece by {
      BitsValueSplit(data, start, acc, take);
    }
    MulComm(piece, Pow2(acc));
  }

  /** A whole byte needs no mask. */
  lemma WholeByteMask(b: nat, remaining: nat)
    requires remaining == 8 ==> b < 256
    ensures remaining == 8 ==> LowBits(b, remaining) == b
  {
    if remaining == 8 {
      assert Pow2(8) == 256;
      LowBitsSmall(b, 8);
    }
  }

  /** `CodeReader::read`: the next `bits` bits of the stream as a number, least
      significant bit first. It fails when the cursor is already past the last
      byte or when the data ends with bits still owed; reading exactly up to
      the end succeeds. */
  function Read(r: CodeReader, bits: nat): (o: Option<(nat, CodeReader)>)
    requires r.Valid() && bits <= 16
    ensures o.Some? <==> r.Position() < 8 * |r.data| && r.Position() + bits <= 8 * |r.data|
    ensures o.Some? ==>
      && o.value.0 == BitsValue(r.data, r.Position(), bits)
      && o.value.0 < Pow2(bits)
      && o.value.1.Valid()
      && o.value.1.data == r.data
      && o.value.1.Position() == r.Position() + bits
  {
    if r.index >= |r.data| then
      None
    else
      var p := r.Position();
      var o := ReadChunks(r.data, r.index, r.remainingBits,
                          Shr(r.data[r.index], 8 - r.remainingBits), bits, 0, 0, p);
      if o.Some? then
        BitsValueBound(r.data, p, bits);
        o
      else
        o
  }

  /** Successive reads at the given widths; `None` as soon as one fails. */
  function ReadCodes(r: CodeReader, widths: seq<nat>): (o: Option<seq<nat>>)
    requires r.Valid()
    requires forall i :: 0 <= i < |widths| ==> widths[i] <= 16
    ensures o.Some? ==> |o.value| == |widths|
    decreases |widths|
  {
    if |widths| == 0 then
      Some([])
    else
      match Read(r, widths[0])
      case None => None
      case Some((v, r')) =>
        match ReadCodes(r', widths[1..])
        case None => None
        case Some(vs) => Some([v] + vs)
  }

  function Sum(ws: seq<nat>): nat
  {
    if |ws| == 0 then 0 else ws[0] + Sum(ws[1..])
  }

  /** The codes found at bit `p` when reading successively at widths `ws`,
      each one taken directly from the stream bits. */
  function CodesAt(data: seq<byte>, p: nat, ws: seq<nat>): seq<nat>
    requires p + Sum(ws) <= 8 * |data|
    decreases |ws|
  {
    if |ws| == 0 then [] else [BitsValue(data, p, ws[0])] + CodesAt(data, p + ws[0], ws[1..])
  }

  /** Widths `CodeReader::read` accepts and that make progress. */
  predicate CodeWidths(ws: seq<nat>)
  {
    forall i :: 0 <= i < |ws| ==> 1 <= ws[i] <= 16
  }

  /** Reads of positive widths that fit in the data all succeed and return
      consecutive runs of stream bits. */
  lemma {:induction false} ReadCodesMeaning(r: CodeReader, ws: seq<nat>)
    requires r.Valid()
    requires CodeWidths(ws)
    requires r.Position() + Sum(ws) <= 8 * |r.data|
    ensures ReadCodes(r, ws) == Some(CodesAt(r.data, r.Position(), ws))
    decreases |ws|
  {
    if |ws| > 0 {
      var p := r.Position();
      var o := Read(r, ws[0]);
      assert o.Some?;
      var (v, r') := o.value;
      CodeWidthsTail(ws);
      CodesAtFirst(r.data, p, p + ws[0], ws);
      ReadCodesMeaning(r', ws[1..]);
      ReadCodesFirst(r, ws, v, r');
    }
  }

  lemma CodeWidthsTail(ws: seq<nat>)
    requires CodeWidths(ws) && |ws| > 0
    ensures CodeWidths(ws[1..]) && 1 <= ws[0] <= 16
  {
    assert forall i :: 0 <= i < |ws| - 1 ==> ws[1..][i] == ws[i + 1];
  }

  /** The first read of several, then the rest from where it stopped. */
  lemma CodesAtFirst(data: seq<byte>, p: nat, q: nat, ws: seq<nat>)
    requires |ws| > 0 && q == p + ws[0] && q + Sum(ws[1..]) <= 8 * |data|
    ensures p + Sum(ws) == q + Sum(ws[1..])
    ensures CodesAt(data, p, ws) == [BitsValue(data, p, ws[0])] + CodesAt(data, q, ws[1..])
  {
  }

  /** The first of several reads, then the others from where it stopped. */
  lemma ReadCodesFirst(r: CodeReader, ws: seq<nat>, v: nat, r': CodeReader)
    requires r.Valid() && CodeWidths(ws) && |ws| > 0
    requires Read(r, ws[0]) == Some((v, r'))
    ensures r'.Valid() && CodeWidths(ws[1..])
    ensures ReadCodes(r, ws) == (match ReadCodes(r', ws[1..]) case None => None case Some(vs) => Some([v] + vs))
  {
    CodeWidthsTail(ws);
  }
}

/** The code reader test of src/decompressor.rs, replayed on the model. */
module CodeReaderExamples {
  import opened Results
  import opened Bits
  import opened CodeReading

  const ReaderTestData: seq<byte> := [93, 93, 93, 93, 93, 245, 182, 102, 182, 102, 84]
  const ReaderTestWidths: seq<nat> := [3, 3, 3, 4, 4, 7, 8, 8, 8, 16, 3, 9, 12]
  const ReaderTestExpected: seq<nat> := [5, 3, 5, 14, 10, 46, 93, 93, 245, 26294, 6, 214, 1350]
  /** The bit offset of each read, and the total. */
  const ReaderTestOffsets: seq<nat> := [0, 3, 6, 9, 13, 17, 24, 32, 40, 48, 64, 67, 76, 88]
  /** The test bytes as one little-endian number. */
  const ReaderTestNumber: nat := 102034814937675788602662237

  /** The reads of the code reader test in src/decompressor.rs, which end exactly at the
      last bit of the data. */
  lemma ReaderTestVector()
    ensures ReadCodes(NewReader(ReaderTestData), ReaderTestWidths) == Some(ReaderTestExpected)
  {
    var d := ReaderTestData;
    ReaderTestVectorOn(d, NewReader(d), ReaderTestWidths);
  }

  /** The test over any data holding the test bytes; taking the bytes as
      facts rather than as a literal keeps the solver from unfolding every
      bit of the literal. */
  lemma ReaderTestVectorOn(d: seq<byte>, r: CodeReader, ws: seq<nat>)
    requires |d| == 11 && d[0] == 93 && d[1] == 93 && d[2] == 93 && d[3] == 93 && d[4] == 93 && d[5] == 245 && d[6] == 182 && d[7] == 102 && d[8] == 182 && d[9] == 102 && d[10] == 84
    requires r == NewReader(d) && ws == ReaderTestWidths
    ensures ReadCodes(r, ws) == Some(ReaderTestExpected)
  {
    ReaderTestBytes(d);
    ReaderTestReads(d, r, ws);
  }

  lemma ReaderTestReads(d: seq<byte>, r: CodeReader, ws: seq<nat>)
    requires |d| == 11 && LittleEndian(d) == ReaderTestNumber
    requires r == NewReader(d) && ws == ReaderTestWidths
    ensures ReadCodes(r, ws) == Some(ReaderTestExpected)
  {
    ReaderTestStart(d);
    ReaderTestWidthsFit(ws);
    ReadCodesMeaning(r, ws);
  }

  lemma ReaderTestStart(d: seq<byte>)
    requires |d| == 11 && LittleEndian(d) == ReaderTestNumber
    ensures Sum(ReaderTestWidths) == 88
    ensures CodesAt(d, 0, ReaderTestWidths) == ReaderTestExpected
  {
    ReaderTestFrom(d, 0);
    assert ReaderTestWidths[0..] == ReaderTestWidths;
    assert ReaderTestExpected[0..] == ReaderTestExpected;
  }

  lemma ReaderTestWidthsFit(ws: seq<nat>)
    requires ws == ReaderTestWidths
    ensures CodeWidths(ws)
  {
  }

  lemma ReaderTestBytes(d: seq<byte>)
    requires |d| == 11 && d[0] == 93 && d[1] == 93 && d[2] == 93 && d[3] == 93 && d[4] == 93 && d[5] == 245 && d[6] == 182 && d[7] == 102 && d[8] == 182 && d[9] == 102 && d[10] == 84
    ensures LittleEndian(d) == ReaderTestNumber
  {
    assert LittleEndian(d[10..]) == 84 by {
      assert d[10..][1..] == [];
    }
    assert LittleEndian(d[9..]) == 21606 by {
      assert d[9..][1..] == d[10..];
    }
    assert LittleEndian(d[8..]) == 5531318 by {
      assert d[8..][1..] == d[9..];
    }
    assert LittleEndian(d[7..]) == 1416017510 by {
      assert d[7..][1..] == d[8..];
    }
    assert LittleEndian(d[6..]) == 362500482742 by {
      assert d[6..][1..] == d[7..];
    }
    assert LittleEndian(d[5..]) == 92800123582197 by {
      assert d[5..][1..] == d[6..];
    }
    assert LittleEndian(d[4..]) == 23756831637042525 by {
      assert d[4..][1..] == d[5..];
    }
    assert LittleEndian(d[3..]) == 6081748899082886493 by {
      assert d[3..][1..] == d[4..];
    }
    assert LittleEndian(d[2..]) == 1556927718165218942301 by {
      assert d[2..][1..] == d[3..];
    }
    assert LittleEndian(d[1..]) == 398573495850296049229149 by {
      assert d[1..][1..] == d[2..];
    }
    assert LittleEndian(d[0..]) == 102034814937675788602662237 by {
      assert d[0..][1..] == d[1..];
    }
    assert d[0..] == d;
  }

  /** The number shifted right past each read. */
  const ReaderTestShifted: seq<nat> := [102034814937675788602662237, 12754351867209473575332779, 1594293983401184196916597, 199286747925148024614574, 12455421745321751538410, 778463859082609471150, 6081748899082886493, 23756831637042525, 92800123582197, 362500482742, 5531318, 691414, 1350, 0]

  /** The reads from the `k`-th one on. */
  lemma {:induction false} ReaderTestFrom(d: seq<byte>, k: nat)
    requires |d| == 11 && LittleEndian(d) == ReaderTestNumber && k <= 13
    ensures ReaderTestOffsets[k] + Sum(ReaderTestWidths[k..]) == 88
    ensures CodesAt(d, ReaderTestOffsets[k], ReaderTestWidths[k..]) == ReaderTestExpected[k..]
    decreases 13 - k
  {
    if k < 13 {
      ReaderTestFrom(d, k + 1);
      ReaderTestAt(d, k);
      SliceFirst(ReaderTestWidths, k);
      SliceFirst(ReaderTestExpected, k);
      CodesAtFirst(d, ReaderTestOffsets[k], ReaderTestOffsets[k + 1], ReaderTestWidths[k..]);
    }
  }

  lemma SliceFirst(s: seq<nat>, k: nat)
    requires k < |s|
    ensures s[k..] == [s[k]] + s[k + 1..] && s[k..][0] == s[k] && s[k..][1..] == s[k + 1..]
  {
  }

  /** The `k`-th read of the test on its own. */
  lemma ReaderTestAt(d: seq<byte>, k: nat)
    requires |d| == 11 && LittleEndian(d) == ReaderTestNumber && k < 13
    ensures ReaderTestOffsets[k] + ReaderTestWidths[k] == ReaderTestOffsets[k + 1] <= 88
    ensures BitsValue(d, ReaderTestOffsets[k], ReaderTestWidths[k]) == ReaderTestExpected[k]
  {
    var p, w := ReaderTestOffsets[k], ReaderTestWidths[k];
    ReaderTestCode(k);
    ReaderTestShift(k);
    BitsValueLittleEndian(d, p, w);
    LowBitsIsMod(ReaderTestShifted[k], w);
  }

  /** Where the `k`-th read starts, the number has been shifted right by the
      widths read so far. */
  lemma {:induction false} ReaderTestShift(k: nat)
    requires k <= 13
    ensures Shr(ReaderTestNumber, ReaderTestOffsets[k]) == ReaderTestShifted[k]
  {
    if k > 0 {
      var p, w := ReaderTestOffsets[k - 1], ReaderTestWidths[k - 1];
      ReaderTestShift(k - 1);
      ReaderTestCode(k - 1);
      ShrAdd(ReaderTestNumber, p, w);
      ShrIsDiv(ReaderTestShifted[k - 1], w);
    }
  }

  /** The `k`-th read of the test, as arithmetic on the shifted number. */
  lemma ReaderTestCode(k: nat)
    requires k < 13
    ensures ReaderTestOffsets[k] + ReaderTestWidths[k] == ReaderTestOffsets[k + 1] <= 88
    ensures ReaderTestShifted[k] % Pow2(ReaderTestWidths[k]) == ReaderTestExpected[k]
    ensures ReaderTestShifted[k] / Pow2(ReaderTestWidths[k]) == ReaderTestShifted[k + 1]
  {
    assert Pow2(3) == 8 && Pow2(4) == 16 && Pow2(7) == 128 && Pow2(8) == 256;
    assert Pow2(9) == 512 && Pow2(12) == 4096 && Pow2(16) == 65536;
    if k < 7 {
      assert k == 0 || k == 1 || k == 2 || k == 3 || k == 4 || k == 5 || k == 6;
    } else {
      assert k == 7 || k == 8 || k == 9 || k == 10 || k == 11 || k == 12;
    }
  }
}

=== FILE: gif_blocks.dfy ===
/** The readers of the individual GIF blocks, shared by `Parser`
    (src/parser.rs) and `Decoder` (src/lib.rs); the `style` argument says
    which of the two hands out colour tables (as colours or as raw bytes).
    Each reader consumes a prefix of its input and fails as soon as the
    input runs out. */
module GifBlocks {
  import opened Results
  import opened Bits
  import opened ByteCursor
  import opened SubBlocks
  import opened Utf8
  import opened GifFormat

  /** `read_block_type`: the introducer byte, and for an extension its label. */
  function ReadBlockType(input: seq<byte>): (o: Result<Parsed<BlockType>, ParseError>)
    ensures o.Ok? <==> |input| >= 1 && (input[0] == ExtensionIntroducerByte ==> |input| >= 2)
    ensures o.Ok? ==> |o.value.rest| < |input|
    ensures o.Ok? && o.value.value.ExtensionIntroducer? ==> input[0] == ExtensionIntroducerByte && o.value.rest == input[2..]
    ensures o.Ok? && !o.value.value.ExtensionIntroducer? ==> input[0] != ExtensionIntroducerByte && o.value.rest == input[1..]
    ensures o.Err? ==> o.error == UnexpectedEof
    ensures |input| >= 1 && input[0] == ImageSeparator ==> o == Ok(Parsed(ImageIntroducer, input[1..]))
    ensures |input| >= 1 && input[0] == Trailer ==> o == Ok(Parsed(TrailerByte, input[1..]))
    ensures |input| >= 2 && input[0] == ExtensionIntroducerByte ==>
      o == Ok(Parsed(ExtensionIntroducer(ExtensionOf(input[1])), input[2..]))
    ensures |input| >= 1 && input[0] != ImageSeparator && input[0] != ExtensionIntroducerByte && input[0] != Trailer ==>
      o == Ok(Parsed(UnknownIntroducer(input[0]), input[1..]))
  {
    var introducer :- ReadU8(input);
    if introducer.value == ImageSeparator then Ok(Parsed(ImageIntroducer, introducer.rest))
    else if introducer.value == ExtensionIntroducerByte then
      var extension :- ReadU8(introducer.rest);
      Ok(Parsed(ExtensionIntroducer(ExtensionOf(extension.value)), extension.rest))
    else if introducer.value == Trailer then Ok(Parsed(TrailerByte, introducer.rest))
    else Ok(Parsed(UnknownIntroducer(introducer.value), introducer.rest))
  }

  /** The extension an extension label names; any other label is unknown. */
  function ExtensionOf(b: byte): (e: ExtensionType)
    ensures b == GraphicControlLabelByte <==> e == GraphicControlLabel
    ensures b == CommentLabelByte <==> e == CommentLabel
    ensures b == PlainTextLabelByte <==> e == PlainTextLabel
    ensures b == ApplicationLabelByte <==> e == ApplicationLabel
    ensures e.UnknownLabel? ==> e.labelByte == b
  {
    if b == GraphicControlLabelByte then GraphicControlLabel
    else if b == CommentLabelByte then CommentLabel
    else if b == PlainTextLabelByte then PlainTextLabel
    else if b == ApplicationLabelByte then ApplicationLabel
    else UnknownLabel(b)
  }

  /** `read_header`: six bytes, the signature and the version, each of
      which must be UTF-8. Checking the signature is the caller's job. */
  function ReadHeader(input: seq<byte>): (o: Result<Parsed<Header>, ParseError>)
    ensures o.Ok? <==> |input| >= 6 && IsUtf8(input[..3]) && IsUtf8(input[3..6])
    ensures o.Ok? ==> o.value.value.signature + o.value.value.version + o.value.rest == input
    ensures o.Ok? ==> |o.value.value.signature| == 3 && |o.value.value.version| == 3
    ensures |input| >= 6 && !o.Ok? ==> o.error == InvalidUtf8
  {
    var bytes :- ReadBytes(input, 6);
    var signature := bytes.value[..3];
    var version := bytes.value[3..];
    assert signature == input[..3] && version == input[3..6];
    if !IsUtf8(signature) then Err(InvalidUtf8)
    else if !IsUtf8(version) then Err(InvalidUtf8)
    else Ok(Parsed(Header(signature, version), bytes.rest))
  }

  /** The byte length of a colour table whose size field is `size`
      (`3 * (1 << (size + 1))`). */
  function TableLength(size: nat): nat {
    3 * Pow2(size + 1)
  }

  /** A colour table of `Pow2(size + 1)` entries, handed out in `style`. */
  function ReadColorTable(input: seq<byte>, size: nat, style: TableStyle): (o: Result<Parsed<ColorTable>, ParseError>)
    ensures o.Ok? <==> |input| >= TableLength(size)
    ensures o.Ok? ==> TableBytes(o.value.value) + o.value.rest == input
    ensures o.Ok? ==> |TableBytes(o.value.value)| == TableLength(size)
    ensures o.Ok? ==> (o.value.value.Colors? <==> style == AsColors)
    ensures o.Ok? && style == AsColors ==> |o.value.value.colors| == Pow2(size + 1)
    ensures o.Err? ==> o.error == UnexpectedEof
  {
    var table :- ReadBytes(input, TableLength(size));
    WholeTriples(table.value, Pow2(size + 1));
    if style == AsColors then Ok(Parsed(Colors(Triples(table.value)), table.rest))
    else Ok(Parsed(Raw(table.value), table.rest))
  }

  /** Bytes that are a whole number of triples are exactly their colours. */
  lemma WholeTriples(b: seq<byte>, k: nat)
    requires |b| == 3 * k
    ensures |Triples(b)| == k && ColorBytes(Triples(b)) == b
  {
    assert |b| / 3 == k;
    assert b[..3 * k] == b;
  }

  /** The table that follows a descriptor whose table flag is `flag`. */
  function ReadOptionalTable(input: seq<byte>, flag: bool, size: nat, style: TableStyle): (o: Result<Parsed<Option<ColorTable>>, ParseError>)
    ensures o.Ok? <==> (flag ==> |input| >= TableLength(size))
    ensures o.Ok? ==> (o.value.value.Some? <==> flag)
    ensures o.Ok? && !flag ==> o.value.rest == input
    ensures o.Ok? && flag ==> Ok(Parsed(o.value.value.value, o.value.rest)) == ReadColorTable(input, size, style)
    ensures o.Err? ==> o.error == UnexpectedEof
  {
    if flag then
      var table :- ReadColorTable(input, size, style);
      Ok(Parsed(Some(table.value), table.rest))
    else Ok(Parsed(None, input))
  }

  /** `read_logical_screen_descriptor`: width, height, the packed byte, the
      background colour index and the pixel aspect ratio (seven bytes),
      then the global colour table when the packed byte's flag is set. The
      aspect ratio is kept as its byte. */
  function ReadLogicalScreenDescriptor(input: seq<byte>, style: TableStyle): (o: Result<Parsed<LogicalScreenDescriptor>, ParseError>)
    ensures o.Ok? ==> |input| >= 7 && |o.value.rest| < |input|
    ensures o.Ok? ==> o.value.value.colorResolution < 8 && o.value.value.globalColorTableSize < 8
    ensures o.Ok? ==> ScreenPacked(o.value.value) == input[4]
    ensures o.Ok? ==> o.value.value.width == U16At(input, 0) && o.value.value.height == U16At(input, 2)
    ensures o.Ok? <==> |input| >= 7 && ReadOptionalTable(input[7..], input[4] / 128 == 1, input[4] % 8, style).Ok?
    ensures o.Ok? ==> ReadOptionalTable(input[7..], input[4] / 128 == 1, input[4] % 8, style)
                        == Ok(Parsed(o.value.value.globalColorTable, o.value.rest))
    ensures o.Ok? ==> o.value.value.backgroundColorIndex == input[5] && o.value.value.pixelAspectRatio == input[6]
    ensures o.Err? ==> o.error == UnexpectedEof
  {
    var fields :- ReadBytes(input, 7);
    var b := fields.value;
    var p := b[4];
    // Table flag in bit 7, colour resolution in bits 6-4, sort flag in bit 3, table size in bits 2-0.
    var flag := p / 128 == 1;
    var size := p % 8;
    var table :- ReadOptionalTable(fields.rest, flag, size, style);
    var d := LogicalScreenDescriptor(U16At(b, 0), U16At(b, 2), flag, p / 16 % 8, p / 8 % 2 == 1, size,
                                     b[5], b[6], table.value);
    ScreenPackedIs(d, p);
    Ok(Parsed(d, table.rest))
  }

  /** A descriptor whose fields are the parts of `p` packs back to `p`. */
  lemma ScreenPackedIs(d: LogicalScreenDescriptor, p: byte)
    requires d.globalColorTableFlag == (p / 128 == 1) && d.colorResolution == p / 16 % 8
    requires d.sortFlag == (p / 8 % 2 == 1) && d.globalColorTableSize == p % 8
    ensures ScreenPacked(d) == p
  {
    ScreenByteSplits(p);
    assert d.colorResolution % 8 == d.colorResolution && d.globalColorTableSize % 8 == d.globalColorTableSize;
  }

  /** `read_image_descriptor`: position and size, then the packed byte. */
  function ReadImageDescriptor(input: seq<byte>): (o: Result<Parsed<ImageDescriptor>, ParseError>)
    ensures o.Ok? <==> |input| >= 9
    ensures o.Ok? ==> o.value.rest == input[9..] && o.value.value.localColorTableSize < 8
    ensures o.Ok? ==> ImagePacked(o.value.value) + 8 * (input[8] / 8 % 4) == input[8]
    ensures o.Ok? ==> o.value.value.left == U16At(input, 0) && o.value.value.top == U16At(input, 2)
    ensures o.Ok? ==> o.value.value.width == U16At(input, 4) && o.value.value.height == U16At(input, 6)
    ensures o.Err? ==> o.error == UnexpectedEof
  {
    var fields :- ReadBytes(input, 9);
    var b := fields.value;
    var p := b[8];
    // Table flag in bit 7, interlace flag in bit 6, sort flag in bit 5, table size in bits 2-0.
    ImageByteSplits(p);
    Ok(Parsed(
      ImageDescriptor(U16At(b, 0), U16At(b, 2), U16At(b, 4), U16At(b, 6),
                      p / 128 == 1, p / 64 % 2 == 1, p / 32 % 2 == 1, p % 8),
      fields.rest))
  }

  /** `read_table_based_image`: the descriptor, the local colour table when
      its flag is set, the LZW minimum code size and the image data. */
  function ReadTableBasedImage(input: seq<byte>, style: TableStyle): (o: Result<Parsed<TableBasedImage>, ParseError>)
    ensures o.Ok? ==> |o.value.rest| < |input|
    ensures o.Ok? ==> (o.value.value.localColorTable.Some? <==> o.value.value.descriptor.localColorTableFlag)
    ensures o.Ok? ==> ReadImageDescriptor(input).Ok? && o.value.value.descriptor == ReadImageDescriptor(input).value.value
    ensures o.Ok? ==>
      var d := ReadImageDescriptor(input).value;
      var t := ReadOptionalTable(d.rest, d.value.localColorTableFlag, d.value.localColorTableSize, style);
      && t.Ok? && t.value.value == o.value.value.localColorTable && |t.value.rest| >= 1
      && o.value.value.imageData.lzwMinimumCodeSize == t.value.rest[0]
      && ReadDataSubBlocks(t.value.rest[1..]) == Ok(Parsed(o.value.value.imageData.data, o.value.rest))
    ensures o.Ok? <==>
      && ReadImageDescriptor(input).Ok?
      && var d := ReadImageDescriptor(input).value;
         var t := ReadOptionalTable(d.rest, d.value.localColorTableFlag, d.value.localColorTableSize, style);
         && t.Ok? && |t.value.rest| >= 1 && ReadDataSubBlocks(t.value.rest[1..]).Ok?
    ensures o.Err? ==> o.error == UnexpectedEof
  {
    var descriptor :- ReadImageDescriptor(input);
    var table :- ReadOptionalTable(descriptor.rest, descriptor.value.localColorTableFlag,
                                   descriptor.value.localColorTableSize, style);
    var minCodeSize :- ReadU8(table.rest);
    var data :- ReadDataSubBlocks(minCodeSize.rest);
    Ok(Parsed(TableBasedImage(descriptor.value, table.value, ImageData(minCodeSize.value, data.value)), data.rest))
  }

  /** `read_graphic_control_extension`: a block of size 4 (packed byte,
      delay, transparent colour index) and its zero terminator. */
  function ReadGraphicControlExtension(input: seq<byte>): (o: Result<Parsed<GraphicControlExtension>, ParseError>)
    ensures o.Ok? <==> |input| >= 6 && input[0] == 4 && input[5] == 0
    ensures o.Ok? ==> o.value.rest == input[6..]
    ensures o.Ok? ==> o.value.value.delayTime == U16At(input, 2) && o.value.value.transparentColorIndex == input[4]
    ensures o.Ok? && input[1] / 4 % 8 < 4 ==> ControlPacked(o.value.value) == input[1] % 32
    ensures o.Ok? ==> (o.value.value.disposalMethod.Undefined? <==> input[1] / 4 % 8 >= 4)
    ensures o.Ok? ==> o.value.value.userInputFlag == (input[1] / 2 % 2 == 1)
    ensures o.Ok? ==> o.value.value.transparentColorFlag == (input[1] % 2 == 1)
    ensures |input| >= 1 && input[0] != 4 ==> o == Err(InvalidGraphicControlBlockSize(input[0]))
    ensures |input| >= 6 && input[0] == 4 && input[5] != 0 ==> o == Err(MissingBlockTerminator)
  {
    var size :- ReadU8(input);
    if size.value != 4 then Err(InvalidGraphicControlBlockSize(size.value))
    else
      var fields :- ReadBytes(size.rest, 5);
      var b := fields.value;
      var p := b[0];
      assert b == input[1..6] && fields.rest == input[6..];
      ControlByteSplits(p);
      if b[4] != 0 then Err(MissingBlockTerminator)
      // Disposal method in bits 4-2 (codes 4 to 7 all read as undefined),
      // user input flag in bit 1, transparency flag in bit 0.
      else Ok(Parsed(GraphicControlExtension(DisposalOf(p / 4 % 8), p / 2 % 2 == 1, p % 2 == 1, U16At(b, 1), b[3]),
                     fields.rest))
  }

  /** A byte is the sum of its bit 7, bits 6-4, bit 3 and bits 2-0. */
  lemma ScreenByteSplits(p: byte)
    ensures p == 128 * Bit(p / 128 == 1) + 16 * (p / 16 % 8) + 8 * Bit(p / 8 % 2 == 1) + p % 8
  {
  }

  /** A byte is the sum of its bits 7, 6 and 5, bits 4-3 and bits 2-0. */
  lemma ImageByteSplits(p: byte)
    ensures p == 128 * Bit(p / 128 == 1) + 64 * Bit(p / 64 % 2 == 1) + 32 * Bit(p / 32 % 2 == 1) + 8 * (p / 8 % 4) + p % 8
  {
  }

  /** The low five bits of a byte are its bits 4-2, bit 1 and bit 0. */
  lemma ControlByteSplits(p: byte)
    ensures p % 32 == 4 * (p / 4 % 8) + 2 * Bit(p / 2 % 2 == 1) + Bit(p % 2 == 1)
  {
    var x: int := p;
    LowFiveBits(x);
    assert Bit(p / 2 % 2 == 1) == x / 2 % 2 && Bit(p % 2 == 1) == x % 2;
  }

  lemma LowFiveBits(x: int)
    requires 0 <= x
    ensures x % 32 == 4 * (x / 4 % 8) + 2 * (x / 2 % 2) + x % 2
  {
    var a, b := x / 4, x / 2;
    assert x == 4 * a + x % 4 && a == 8 * (a / 8) + a % 8;
    assert x == 32 * (a / 8) + (4 * (a % 8) + x % 4);
    DivModUnique(x, 32, a / 8, 4 * (a % 8) + x % 4);
    assert x == 2 * b + x % 2 && b == 2 * (b / 2) + b % 2;
    assert x == 4 * (b / 2) + (2 * (b % 2) + x % 2);
    DivModUnique(x, 4, b / 2, 2 * (b % 2) + x % 2);
  }

  /** The disposal method a 3-bit code names. */
  function DisposalOf(code: nat): (m: DisposalMethod)
    requires code < 8
    ensures code < 4 ==> DisposalCode(m) == code
    ensures code >= 4 <==> m == Undefined
  {
    if code == 0 then Unspecified
    else if code == 1 then DoNotDispose
    else if code == 2 then RestoreToBackgroundColor
    else if code == 3 then RestoreToPrevious
    else Undefined
  }

  /** `read_application_extension`: a block of size 11 holding an 8-byte
      identifier and a 3-byte authentication code, then data sub-blocks. */
  function ReadApplicationExtension(input: seq<byte>): (o: Result<Parsed<ApplicationExtension>, ParseError>)
    ensures o.Ok? ==> |o.value.rest| < |input|
    ensures o.Ok? ==> |input| >= 12 && input[0] == 11
    ensures o.Ok? ==> o.value.value.identifier == input[1..9] && o.value.value.authenticationCode == input[9..12]
    ensures o.Ok? ==> IsUtf8(input[1..9]) && IsUtf8(input[9..12])
    ensures o.Ok? <==>
      |input| >= 12 && input[0] == 11 && IsUtf8(input[1..9]) && IsUtf8(input[9..12]) && ReadDataSubBlocks(input[12..]).Ok?
    ensures o.Ok? ==> ReadDataSubBlocks(input[12..]) == Ok(Parsed(o.value.value.data, o.value.rest))
    ensures |input| >= 1 && input[0] != 11 ==> o == Err(InvalidApplicationBlockSize(input[0]))
    ensures |input| >= 9 && input[0] == 11 && !IsUtf8(input[1..9]) ==> o == Err(IdentifierNotUtf8)
    ensures |input| >= 12 && input[0] == 11 && !IsUtf8(input[9..12]) ==> o == Err(IdentifierNotUtf8)
  {
    var size :- ReadU8(input);
    if size.value != 11 then Err(InvalidApplicationBlockSize(size.value))
    else
      var identifier :- ReadBytes(size.rest, 8);
      assert identifier.value == input[1..9];
      if !IsUtf8(identifier.value) then Err(IdentifierNotUtf8)
      else
        var code :- ReadBytes(identifier.rest, 3);
        assert code.value == input[9..12] && code.rest == input[12..];
        if !IsUtf8(code.value) then Err(IdentifierNotUtf8)
        else
          var data :- ReadDataSubBlocks(code.rest);
          Ok(Parsed(ApplicationExtension(identifier.value, code.value, data.value), data.rest))
  }

  /** `read_comment_extension`: data sub-blocks that must be UTF-8. */
  function ReadCommentExtension(input: seq<byte>): (o: Result<Parsed<CommentExtension>, ParseError>)
    ensures o.Ok? <==> ReadDataSubBlocks(input).Ok? && IsUtf8(ReadDataSubBlocks(input).value.value)
    ensures o.Ok? ==> ReadDataSubBlocks(input) == Ok(Parsed(o.value.value.text, o.value.rest))
    ensures o.Ok? ==> |o.value.rest| < |input|
    ensures ReadDataSubBlocks(input).Ok? && !o.Ok? ==> o.error == InvalidUtf8
  {
    var data :- ReadDataSubBlocks(input);
    if !IsUtf8(data.value) then Err(InvalidUtf8)
    else Ok(Parsed(CommentExtension(data.value), data.rest))
  }

  /** `read_plain_text_extension`: a block of size 12 (text grid position
      and size, cell size, colour indexes), then UTF-8 text in data
      sub-blocks. */
  function ReadPlainTextExtension(input: seq<byte>): (o: Result<Parsed<PlainTextExtension>, ParseError>)
    ensures o.Ok? ==> |o.value.rest| < |input|
    ensures o.Ok? ==> |input| >= 13 && input[0] == 12 && IsUtf8(o.value.value.text)
    ensures o.Ok? ==> ReadDataSubBlocks(input[13..]) == Ok(Parsed(o.value.value.text, o.value.rest))
    ensures o.Ok? ==>
      && o.value.value.textGridLeft == U16At(input, 1) && o.value.value.textGridTop == U16At(input, 3)
      && o.value.value.textGridWidth == U16At(input, 5) && o.value.value.textGridHeight == U16At(input, 7)
    ensures o.Ok? ==>
      && o.value.value.cellWidth == input[9] && o.value.value.cellHeight == input[10]
      && o.value.value.foregroundColorIndex == input[11] && o.value.value.backgroundColorIndex == input[12]
    ensures o.Ok? <==>
      |input| >= 13 && input[0] == 12 && ReadDataSubBlocks(input[13..]).Ok? && IsUtf8(ReadDataSubBlocks(input[13..]).value.value)
    ensures |input| >= 1 && input[0] != 12 ==> o == Err(InvalidPlainTextBlockSize(input[0]))
    ensures |input| >= 13 && input[0] == 12 && ReadDataSubBlocks(input[13..]).Ok? && !IsUtf8(ReadDataSubBlocks(input[13..]).value.value)
      ==> o == Err(InvalidUtf8)
  {
    var size :- ReadU8(input);
    if size.value != 12 then Err(InvalidPlainTextBlockSize(size.value))
    else
      var fields :- ReadBytes(size.rest, 12);
      var b := fields.value;
      assert b == input[1..13] && fields.rest == input[13..];
      var data :- ReadDataSubBlocks(fields.rest);
      if !IsUtf8(data.value) then Err(InvalidUtf8)
      else Ok(Parsed(
        PlainTextExtension(U16At(b, 0), U16At(b, 2), U16At(b, 4), U16At(b, 6), b[8], b[9], b[10], b[11], data.value),
        data.rest))
  }
}

=== FILE: gif_format.dfy ===
/** The values the GIF block parser produces (the structs and enums at the
    top of src/parser.rs, repeated in src/lib.rs). Text fields hold the
    bytes after they were checked to be well-formed UTF-8; 16-bit fields
    are naturals below 2^16 and 3-bit fields naturals below 8. */
module GifFormat {
  import opened Results
  import opened Bits

  datatype Color = Color(red: byte, green: byte, blue: byte)

  /** How colour tables are handed out: as RGB triples (`Parser`, in
      src/parser.rs) or as the raw bytes of the table (`Decoder`, in
      src/lib.rs). */
  datatype TableStyle = AsColors | AsBytes

  datatype ColorTable = Colors(colors: seq<Color>) | Raw(bytes: seq<byte>)

  datatype Header = Header(signature: seq<byte>, version: seq<byte>)

  datatype LogicalScreenDescriptor = LogicalScreenDescriptor(
    width: nat,
    height: nat,
    globalColorTableFlag: bool,
    colorResolution: nat,
    sortFlag: bool,
    globalColorTableSize: nat,
    backgroundColorIndex: byte,
    pixelAspectRatio: byte,
    globalColorTable: Option<ColorTable>)

  datatype ImageDescriptor = ImageDescriptor(
    left: nat,
    top: nat,
    width: nat,
    height: nat,
    localColorTableFlag: bool,
    interlaceFlag: bool,
    sortFlag: bool,
    localColorTableSize: nat)

  datatype ImageData = ImageData(lzwMinimumCodeSize: byte, data: seq<byte>)

  datatype TableBasedImage = TableBasedImage(
    descriptor: ImageDescriptor,
    localColorTable: Option<ColorTable>,
    imageData: ImageData)

  datatype DisposalMethod =
    | Unspecified
    | DoNotDispose
    | RestoreToBackgroundColor
    | RestoreToPrevious
    | Undefined

  datatype GraphicControlExtension = GraphicControlExtension(
    disposalMethod: DisposalMethod,
    userInputFlag: bool,
    transparentColorFlag: bool,
    delayTime: nat,
    transparentColorIndex: byte)

  datatype PlainTextExtension = PlainTextExtension(
    textGridLeft: nat,
    textGridTop: nat,
    textGridWidth: nat,
    textGridHeight: nat,
    cellWidth: byte,
    cellHeight: byte,
    foregroundColorIndex: byte,
    backgroundColorIndex: byte,
    text: seq<byte>)

  datatype ApplicationExtension = ApplicationExtension(
    identifier: seq<byte>,
    authenticationCode: seq<byte>,
    data: seq<byte>)

  datatype CommentExtension = CommentExtension(text: seq<byte>)

  /** One block of the data stream, in the order it appears. */
  datatype DataBlock =
    | ImageBlock(image: TableBasedImage)
    | GraphicControlBlock(control: GraphicControlExtension)
    | CommentBlock(comment: CommentExtension)
    | PlainTextBlock(plainText: PlainTextExtension)
    | ApplicationBlock(application: ApplicationExtension)

  datatype GifFile = GifFile(
    header: Header,
    logicalScreenDescriptor: LogicalScreenDescriptor,
    blocks: seq<DataBlock>)

  datatype ExtensionType = ApplicationLabel | CommentLabel | GraphicControlLabel | PlainTextLabel | UnknownLabel(labelByte: byte)

  datatype BlockType = ImageIntroducer | ExtensionIntroducer(extension: ExtensionType) | TrailerByte | UnknownIntroducer(introducer: byte)

  const ImageSeparator: byte := 0x2C
  const ExtensionIntroducerByte: byte := 0x21
  const Trailer: byte := 0x3B
  const GraphicControlLabelByte: byte := 0xF9
  const CommentLabelByte: byte := 0xFE
  const PlainTextLabelByte: byte := 0x01
  const ApplicationLabelByte: byte := 0xFF

  /** The signature every GIF stream starts with: "GIF". */
  const GifSignature: seq<byte> := [0x47, 0x49, 0x46]

  /** The colours of a raw table, one per consecutive triple of bytes;
      `chunks_exact(3)` drops a final partial triple. */
  function Triples(bytes: seq<byte>): (cs: seq<Color>)
    ensures |cs| == |bytes| / 3
    ensures ColorBytes(cs) == bytes[..3 * (|bytes| / 3)]
    decreases |bytes|
  {
    if |bytes| < 3 then []
    else
      var cs := [Color(bytes[0], bytes[1], bytes[2])] + Triples(bytes[3..]);
      assert cs[1..] == Triples(bytes[3..]);
      assert bytes[..3 * (|bytes| / 3)] == bytes[..3] + bytes[3..][..3 * (|bytes[3..]| / 3)];
      cs
  }

  /** The bytes of a table of colours: red, green, blue of each in turn. */
  function ColorBytes(cs: seq<Color>): (bytes: seq<byte>)
    ensures |bytes| == 3 * |cs|
  {
    if |cs| == 0 then [] else [cs[0].red, cs[0].green, cs[0].blue] + ColorBytes(cs[1..])
  }

  /** The colours of a table, whichever way it is held. */
  function TableColors(t: ColorTable): seq<Color>
  {
    match t
    case Colors(cs) => cs
    case Raw(bytes) => Triples(bytes)
  }

  /** The bytes of a table, whichever way it is held. */
  function TableBytes(t: ColorTable): (bytes: seq<byte>)
  {
    match t
    case Colors(cs) => ColorBytes(cs)
    case Raw(bytes) => bytes
  }

  function Bit(b: bool): nat {
    if b then 1 else 0
  }

  /** The packed byte of a logical screen descriptor: table flag in bit 7,
      colour resolution in bits 6-4, sort flag in bit 3, table size in
      bits 2-0 (each 3-bit value keeps its low 3 bits). */
  function ScreenPacked(d: LogicalScreenDescriptor): (b: byte)
  {
    128 * Bit(d.globalColorTableFlag) + 16 * (d.colorResolution % 8) + 8 * Bit(d.sortFlag) + d.globalColorTableSize % 8
  }

  /** The packed byte of an image descriptor: table flag in bit 7, interlace
      flag in bit 6, sort flag in bit 5, table size in bits 2-0; bits 4-3
      are reserved and written as zero. */
  function ImagePacked(d: ImageDescriptor): (b: byte)
  {
    128 * Bit(d.localColorTableFlag) + 64 * Bit(d.interlaceFlag) + 32 * Bit(d.sortFlag) + d.localColorTableSize % 8
  }

  /** The 3-bit code of a disposal method; every code from 4 to 7 reads as
      `Undefined`, which is written as 4. */
  function DisposalCode(m: DisposalMethod): (c: nat)
    ensures c < 8
  {
    match m
    case Unspecified => 0
    case DoNotDispose => 1
    case RestoreToBackgroundColor => 2
    case RestoreToPrevious => 3
    case Undefined => 4
  }

  /** The packed byte of a graphic control extension: disposal method in
      bits 4-2, user input flag in bit 1, transparency flag in bit 0; bits
      7-5 are reserved and written as zero. */
  function ControlPacked(g: GraphicControlExtension): (b: byte)
  {
    4 * DisposalCode(g.disposalMethod) + 2 * Bit(g.userInputFlag) + Bit(g.transparentColorFlag)
  }
}

=== FILE: gif_parser.dfy ===
/** The block loop of `Parser::parse` (src/parser.rs) and
    `Decoder::decode` (src/lib.rs): the header, whose signature must be
    "GIF", the logical screen descriptor, then blocks in stream order until
    the trailer. The two differ only in how colour tables are handed out,
    which `ParseWith` takes as its `style`. */
module GifParser {
  import opened Results
  import opened Bits
  import opened ByteCursor
  import opened Utf8
  import opened GifFormat
  import opened GifBlocks

  /** The block that an introducer (and label) other than the trailer
      announces; an unknown introducer or label is an error. */
  function ReadDataBlock(kind: BlockType, input: seq<byte>, style: TableStyle): (o: Result<Parsed<DataBlock>, ParseError>)
    requires !kind.TrailerByte?
    ensures o.Ok? ==> |o.value.rest| < |input|
    ensures kind.UnknownIntroducer? ==> o == Err(UnknownBlockType(kind.introducer))
    ensures kind.ExtensionIntroducer? && kind.extension.UnknownLabel? ==> o == Err(UnknownExtensionType(kind.extension.labelByte))
    // Each known kind succeeds exactly when its reader does, carries that
    // reader's value and leftover input, and passes on that reader's error.
    ensures kind.ImageIntroducer? ==>
      var r := ReadTableBasedImage(input, style);
      && (o.Ok? <==> r.Ok?)
      && (o.Ok? ==> o.value == Parsed(ImageBlock(r.value.value), r.value.rest))
      && (r.Err? ==> o == Err(r.error))
    ensures kind == ExtensionIntroducer(GraphicControlLabel) ==>
      var r := ReadGraphicControlExtension(input);
      && (o.Ok? <==> r.Ok?)
      && (o.Ok? ==> o.value == Parsed(GraphicControlBlock(r.value.value), r.value.rest))
      && (r.Err? ==> o == Err(r.error))
    ensures kind == ExtensionIntroducer(CommentLabel) ==>
      var r := ReadCommentExtension(input);
      && (o.Ok? <==> r.Ok?)
      && (o.Ok? ==> o.value == Parsed(CommentBlock(r.value.value), r.value.rest))
      && (r.Err? ==> o == Err(r.error))
    ensures kind == ExtensionIntroducer(PlainTextLabel) ==>
      var r := ReadPlainTextExtension(input);
      && (o.Ok? <==> r.Ok?)
      && (o.Ok? ==> o.value == Parsed(PlainTextBlock(r.value.value), r.value.rest))
      && (r.Err? ==> o == Err(r.error))
    ensures kind == ExtensionIntroducer(ApplicationLabel) ==>
      var r := ReadApplicationExtension(input);
      && (o.Ok? <==> r.Ok?)
      && (o.Ok? ==> o.value == Parsed(ApplicationBlock(r.value.value), r.value.rest))
      && (r.Err? ==> o == Err(r.error))
  {
    match kind
    case ImageIntroducer =>
      var image :- ReadTableBasedImage(input, style);
      Ok(Parsed(ImageBlock(image.value), image.rest))
    case ExtensionIntroducer(ApplicationLabel) =>
      var ext :- ReadApplicationExtension(input);
      Ok(Parsed(ApplicationBlock(ext.value), ext.rest))
    case ExtensionIntroducer(CommentLabel) =>
      var ext :- ReadCommentExtension(input);
      Ok(Parsed(CommentBlock(ext.value), ext.rest))
    case ExtensionIntroducer(GraphicControlLabel) =>
      var ext :- ReadGraphicControlExtension(input);
      Ok(Parsed(GraphicControlBlock(ext.value), ext.rest))
    case ExtensionIntroducer(PlainTextLabel) =>
      var ext :- ReadPlainTextExtension(input);
      Ok(Parsed(PlainTextBlock(ext.value), ext.rest))
    case ExtensionIntroducer(UnknownLabel(x)) => Err(UnknownExtensionType(x))
    case UnknownIntroducer(x) => Err(UnknownBlockType(x))
  }

  /** The blocks up to and including the trailer; what follows the trailer
      is left unread. */
  function ParseBlocks(input: seq<byte>, style: TableStyle): (o: Result<Parsed<seq<DataBlock>>, ParseError>)
    ensures o.Ok? ==> |o.value.rest| < |input|
    ensures |input| >= 1 && input[0] == Trailer ==> o == Ok(Parsed([], input[1..]))
    ensures |input| == 0 ==> o == Err(UnexpectedEof)
    ensures |input| >= 1 && input[0] != ImageSeparator && input[0] != ExtensionIntroducerByte && input[0] != Trailer
      ==> o == Err(UnknownBlockType(input[0]))
    ensures |input| >= 2 && input[0] == ExtensionIntroducerByte
      && input[1] != GraphicControlLabelByte && input[1] != CommentLabelByte
      && input[1] != PlainTextLabelByte && input[1] != ApplicationLabelByte
      ==> o == Err(UnknownExtensionType(input[1]))
    // A failing introducer or block reader ends the loop with its error.
    ensures ReadBlockType(input).Err? ==> o == Err(ReadBlockType(input).error)
    ensures ReadBlockType(input).Ok? && !ReadBlockType(input).value.value.TrailerByte? ==>
      var kind := ReadBlockType(input).value;
      ReadDataBlock(kind.value, kind.rest, style).Err? ==> o == Err(ReadDataBlock(kind.value, kind.rest, style).error)
    decreases |input|
  {
    var kind :- ReadBlockType(input);
    if kind.value == TrailerByte then Ok(Parsed([], kind.rest))
    else
      var block :- ReadDataBlock(kind.value, kind.rest, style);
      var more :- ParseBlocks(block.rest, style);
      Ok(Parsed([block.value] + more.value, more.rest))
  }

  /** One turn of the block loop: a block other than the trailer, then the
      rest of the loop. */
  lemma ParseBlocksStep(input: seq<byte>, style: TableStyle, kind: BlockType, body: seq<byte>,
                        block: DataBlock, after: seq<byte>)
    requires ReadBlockType(input) == Ok(Parsed(kind, body)) && !kind.TrailerByte?
    requires ReadDataBlock(kind, body, style) == Ok(Parsed(block, after))
    ensures ParseBlocks(input, style) ==
      (match ParseBlocks(after, style)
       case Ok(more) => Ok(Parsed([block] + more.value, more.rest))
       case Err(e) => Err(e))
  {
  }

  /** The converse of `ParseBlocksStep`: a successful loop that does not
      start at the trailer is one block read by its reader, followed by the
      rest of the loop. */
  lemma ParseBlocksParts(input: seq<byte>, style: TableStyle)
    requires ParseBlocks(input, style).Ok? && |input| >= 1 && input[0] != Trailer
    ensures ReadBlockType(input).Ok? && !ReadBlockType(input).value.value.TrailerByte?
    ensures var kind := ReadBlockType(input).value;
      && ReadDataBlock(kind.value, kind.rest, style).Ok?
      && var b := ReadDataBlock(kind.value, kind.rest, style).value;
         && ParseBlocks(b.rest, style).Ok?
         && ParseBlocks(input, style).value
            == Parsed([b.value] + ParseBlocks(b.rest, style).value.value, ParseBlocks(b.rest, style).value.rest)
  {
  }

  function ParseWith(input: seq<byte>, style: TableStyle): (o: Result<GifFile, ParseError>)
    ensures o.Ok? ==> |input| >= 14 && input[..3] == GifSignature && IsUtf8(input[3..6])
    ensures o.Ok? ==> o.value.header == Header(input[..3], input[3..6])
    ensures |input| < 6 ==> o == Err(UnexpectedEof)
    ensures |input| >= 6 && IsUtf8(input[..3]) && IsUtf8(input[3..6]) && input[..3] != GifSignature ==> o == Err(NotAGif)
    // A parsed file is the screen descriptor read after the header and the
    // blocks read after the descriptor.
    ensures o.Ok? ==>
      && ReadLogicalScreenDescriptor(input[6..], style).Ok?
      && var screen := ReadLogicalScreenDescriptor(input[6..], style).value;
         && ParseBlocks(screen.rest, style).Ok?
         && o.value == GifFile(Header(input[..3], input[3..6]), screen.value, ParseBlocks(screen.rest, style).value.value)
    // Behind a valid "GIF" header, an error of the descriptor or of the
    // block loop is the file's error.
    ensures |input| >= 6 && IsUtf8(input[..3]) && IsUtf8(input[3..6]) && input[..3] == GifSignature ==>
      var screen := ReadLogicalScreenDescriptor(input[6..], style);
      && (screen.Err? ==> o == Err(screen.error))
      && (screen.Ok? && ParseBlocks(screen.value.rest, style).Err? ==> o == Err(ParseBlocks(screen.value.rest, style).error))
  {
    var header :- ReadHeader(input);
    if header.value.signature != GifSignature then Err(NotAGif)
    else
      var screen :- ReadLogicalScreenDescriptor(header.rest, style);
      var blocks :- ParseBlocks(screen.rest, style);
      Ok(GifFile(header.value, screen.value, blocks.value))
  }

  /** A file read part by part: the header, whose signature is "GIF", the
      logical screen descriptor, then the blocks. */
  lemma ParseWithParts(input: seq<byte>, style: TableStyle, header: Header, afterHeader: seq<byte>,
                       screen: LogicalScreenDescriptor, afterScreen: seq<byte>,
                       blocks: seq<DataBlock>, rest: seq<byte>)
    requires ReadHeader(input) == Ok(Parsed(header, afterHeader)) && header.signature == GifSignature
    requires ReadLogicalScreenDescriptor(afterHeader, style) == Ok(Parsed(screen, afterScreen))
    requires ParseBlocks(afterScreen, style) == Ok(Parsed(blocks, rest))
    ensures ParseWith(input, style) == Ok(GifFile(header, screen, blocks))
  {
  }

  /** `Parser::parse`: colour tables as RGB triples. */
  function Parse(input: seq<byte>): (o: Result<GifFile, ParseError>)
    ensures o.Ok? ==> |input| >= 14 && input[..3] == GifSignature && o.value.header == Header(input[..3], input[3..6])
    ensures |input| >= 6 && IsUtf8(input[..3]) && IsUtf8(input[3..6]) && input[..3] != GifSignature ==> o == Err(NotAGif)
    ensures o.Ok? && o.value.logicalScreenDescriptor.globalColorTable.Some? ==>
      o.value.logicalScreenDescriptor.globalColorTable.value.Colors?
  {
    ParseWith(input, AsColors)
  }

  /** `Decoder::decode`: colour tables as raw bytes. */
  function Decode(input: seq<byte>): (o: Result<GifFile, ParseError>)
    ensures o.Ok? ==> |input| >= 14 && input[..3] == GifSignature && o.value.header == Header(input[..3], input[3..6])
    ensures |input| >= 6 && IsUtf8(input[..3]) && IsUtf8(input[3..6]) && input[..3] != GifSignature ==> o == Err(NotAGif)
    ensures o.Ok? && o.value.logicalScreenDescriptor.globalColorTable.Some? ==>
      o.value.logicalScreenDescriptor.globalColorTable.value.Raw?
  {
    ParseWith(input, AsBytes)
  }
}

=== FILE: gif_styles.dfy ===
/** `Parser::parse` (src/parser.rs) and `Decoder::decode` (src/lib.rs)
    accept the same streams, fail with the same errors, and produce the
    same files except that `Parser` turns each colour table into RGB
    triples where `Decoder` keeps its bytes. */
module GifStyles {
  import opened Results
  import opened Bits
  import opened ByteCursor
  import opened SubBlocks
  import opened GifFormat
  import opened GifBlocks
  import opened GifParser

  /** A table's colours as RGB triples. */
  function AsColorTable(t: ColorTable): ColorTable {
    Colors(TableColors(t))
  }

  function OptionalColors(t: Option<ColorTable>): Option<ColorTable> {
    if t.Some? then Some(AsColorTable(t.value)) else None
  }

  function ScreenColors(d: LogicalScreenDescriptor): LogicalScreenDescriptor {
    d.(globalColorTable := OptionalColors(d.globalColorTable))
  }

  function ImageColors(img: TableBasedImage): TableBasedImage {
    img.(localColorTable := OptionalColors(img.localColorTable))
  }

  function BlockColors(b: DataBlock): DataBlock {
    if b.ImageBlock? then ImageBlock(ImageColors(b.image)) else b
  }

  function BlocksColors(bs: seq<DataBlock>): (cs: seq<DataBlock>)
    ensures |cs| == |bs|
  {
    if |bs| == 0 then [] else [BlockColors(bs[0])] + BlocksColors(bs[1..])
  }

  function FileColors(f: GifFile): GifFile {
    f.(logicalScreenDescriptor := ScreenColors(f.logicalScreenDescriptor), blocks := BlocksColors(f.blocks))
  }

  /** A read result with its value passed through `f`. */
  function MapValue<T, U>(o: Result<Parsed<T>, ParseError>, f: T -> U): Result<Parsed<U>, ParseError> {
    match o
    case Ok(p) => Ok(Parsed(f(p.value), p.rest))
    case Err(e) => Err(e)
  }

  lemma ColorTableStyles(input: seq<byte>, size: nat)
    ensures ReadColorTable(input, size, AsColors) == MapValue(ReadColorTable(input, size, AsBytes), AsColorTable)
  {
  }

  lemma OptionalTableStyles(input: seq<byte>, flag: bool, size: nat)
    ensures ReadOptionalTable(input, flag, size, AsColors)
      == MapValue(ReadOptionalTable(input, flag, size, AsBytes), OptionalColors)
  {
    ColorTableStyles(input, size);
  }

  lemma ScreenStyles(input: seq<byte>)
    ensures ReadLogicalScreenDescriptor(input, AsColors)
      == MapValue(ReadLogicalScreenDescriptor(input, AsBytes), ScreenColors)
  {
    if |input| >= 7 {
      var p := input[4];
      OptionalTableStyles(input[7..], p / 128 == 1, p % 8);
    }
  }

  lemma ImageStyles(input: seq<byte>)
    ensures ReadTableBasedImage(input, AsColors) == MapValue(ReadTableBasedImage(input, AsBytes), ImageColors)
  {
    var descriptor := ReadImageDescriptor(input);
    if descriptor.Ok? {
      var d := descriptor.value;
      OptionalTableStyles(d.rest, d.value.localColorTableFlag, d.value.localColorTableSize);
      var table := ReadOptionalTable(d.rest, d.value.localColorTableFlag, d.value.localColorTableSize, AsBytes);
      if table.Ok? {
        var t := table.value;
        var code := ReadU8(t.rest);
        if code.Ok? {
          var data := ReadDataSubBlocks(code.value.rest);
          if data.Ok? {
            var img := TableBasedImage(d.value, t.value, ImageData(code.value.value, data.value.value));
            assert ReadTableBasedImage(input, AsBytes) == Ok(Parsed(img, data.value.rest));
            assert ReadTableBasedImage(input, AsColors) == Ok(Parsed(ImageColors(img), data.value.rest));
          }
        }
      }
    }
  }

  lemma DataBlockStyles(kind: BlockType, input: seq<byte>)
    requires !kind.TrailerByte?
    ensures ReadDataBlock(kind, input, AsColors) == MapValue(ReadDataBlock(kind, input, AsBytes), BlockColors)
  {
    if kind.ImageIntroducer? {
      ImageStyles(input);
    }
  }

  lemma {:induction false} BlocksStyles(input: seq<byte>)
    ensures ParseBlocks(input, AsColors) == MapValue(ParseBlocks(input, AsBytes), BlocksColors)
    decreases |input|
  {
    var kind := ReadBlockType(input);
    if kind.Ok? && !kind.value.value.TrailerByte? {
      var k := kind.value;
      DataBlockStyles(k.value, k.rest);
      var block := ReadDataBlock(k.value, k.rest, AsBytes);
      if block.Ok? {
        var b := block.value;
        BlocksStyles(b.rest);
        ParseBlocksStep(input, AsBytes, k.value, k.rest, b.value, b.rest);
        ParseBlocksStep(input, AsColors, k.value, k.rest, BlockColors(b.value), b.rest);
        var more := ParseBlocks(b.rest, AsBytes);
        if more.Ok? {
          assert BlocksColors([b.value] + more.value.value) == [BlockColors(b.value)] + BlocksColors(more.value.value) by {
            assert ([b.value] + more.value.value)[1..] == more.value.value;
          }
        }
      }
    }
  }

  /** `Parser::parse` is `Decoder::decode` with its colour tables read as
      RGB triples: same success, same error, same file otherwise. */
  lemma ParseIsDecodeWithColors(input: seq<byte>)
    ensures Parse(input).Ok? <==> Decode(input).Ok?
    ensures Parse(input).Ok? ==> Parse(input).value == FileColors(Decode(input).value)
    ensures Parse(input).Err? ==> Parse(input).error == Decode(input).error
  {
    var header := ReadHeader(input);
    if header.Ok? && header.value.value.signature == GifSignature {
      var h := header.value;
      ScreenStyles(h.rest);
      var screen := ReadLogicalScreenDescriptor(h.rest, AsBytes);
      if screen.Ok? {
        BlocksStyles(screen.value.rest);
      }
    }
  }
}

=== FILE: gif_writer.dfy ===
/** A GIF writer: the inverse of the block readers, used to state what the
    readers recover. Reserved bits are written as zero, text and data are
    cut into sub-blocks of at most 255 bytes, and `Undefined` disposal is
    written as code 4. The round-trip lemmas show that every reader, and
    the whole parse, gives back exactly what was written and leaves the
    bytes after it unread. */
module GifWriter {
  import opened Results
  import opened Bits
  import opened ByteCursor
  import opened SubBlocks
  import opened Utf8
  import opened GifFormat
  import opened GifBlocks
  import opened GifParser

  // ----- Which values can be written -----

  predicate U16Fits(v: nat) {
    v < 0x1_0000
  }

  predicate TableOk(t: ColorTable, size: nat, style: TableStyle) {
    (t.Colors? <==> style == AsColors) && |TableBytes(t)| == TableLength(size)
  }

  /** A table is present exactly when the flag says so, and has the size
      and form the descriptor and the style call for. */
  predicate TableFits(t: Option<ColorTable>, flag: bool, size: nat, style: TableStyle) {
    (t.Some? <==> flag) && (t.Some? ==> TableOk(t.value, size, style))
  }

  predicate HeaderOk(h: Header) {
    h.signature == GifSignature && |h.version| == 3 && IsUtf8(h.version)
  }

  predicate ScreenOk(d: LogicalScreenDescriptor, style: TableStyle) {
    U16Fits(d.width) && U16Fits(d.height) && d.colorResolution < 8 && d.globalColorTableSize < 8
    && TableFits(d.globalColorTable, d.globalColorTableFlag, d.globalColorTableSize, style)
  }

  predicate DescriptorOk(d: ImageDescriptor) {
    U16Fits(d.left) && U16Fits(d.top) && U16Fits(d.width) && U16Fits(d.height) && d.localColorTableSize < 8
  }

  predicate ImageOk(img: TableBasedImage, style: TableStyle) {
    DescriptorOk(img.descriptor)
    && TableFits(img.localColorTable, img.descriptor.localColorTableFlag, img.descriptor.localColorTableSize, style)
  }

  /** A block the readers can give back: its fields fit, its tables match
      its flags and the style, and its text is UTF-8. */
  predicate BlockOk(b: DataBlock, style: TableStyle) {
    match b
    case ImageBlock(img) => ImageOk(img, style)
    case GraphicControlBlock(g) => U16Fits(g.delayTime)
    case CommentBlock(c) => IsUtf8(c.text)
    case PlainTextBlock(p) =>
      U16Fits(p.textGridLeft) && U16Fits(p.textGridTop) && U16Fits(p.textGridWidth) && U16Fits(p.textGridHeight)
      && IsUtf8(p.text)
    case ApplicationBlock(a) =>
      |a.identifier| == 8 && IsUtf8(a.identifier) && |a.authenticationCode| == 3 && IsUtf8(a.authenticationCode)
  }

  predicate BlocksOk(bs: seq<DataBlock>, style: TableStyle) {
    forall i :: 0 <= i < |bs| ==> BlockOk(bs[i], style)
  }

  predicate FileOk(f: GifFile, style: TableStyle) {
    HeaderOk(f.header) && ScreenOk(f.logicalScreenDescriptor, style) && BlocksOk(f.blocks, style)
  }

  // ----- Packed bytes -----

  lemma ScreenUnpacks(d: LogicalScreenDescriptor)
    requires d.colorResolution < 8 && d.globalColorTableSize < 8
    ensures var p := ScreenPacked(d);
      (p / 128 == 1) == d.globalColorTableFlag && p / 16 % 8 == d.colorResolution
      && (p / 8 % 2 == 1) == d.sortFlag && p % 8 == d.globalColorTableSize
  {
    var f, r, s, z := Bit(d.globalColorTableFlag), d.colorResolution, Bit(d.sortFlag), d.globalColorTableSize;
    assert r % 8 == r && z % 8 == z;
    assert ScreenPacked(d) == 128 * f + 16 * r + 8 * s + z;
    ScreenFields(f, r, s, z);
  }

  /** The fields of `128 * f + 16 * r + 8 * s + z`. */
  lemma ScreenFields(f: int, r: int, s: int, z: int)
    requires 0 <= f < 2 && 0 <= r < 8 && 0 <= s < 2 && 0 <= z < 8
    ensures var p := 128 * f + 16 * r + 8 * s + z;
      p / 128 == f && p / 16 % 8 == r && p / 8 % 2 == s && p % 8 == z
  {
    var p := 128 * f + 16 * r + 8 * s + z;
    DivModUnique(p, 128, f, 16 * r + 8 * s + z);
    DivModUnique(p, 16, 8 * f + r, 8 * s + z);
    DivModUnique(8 * f + r, 8, f, r);
    DivModUnique(p, 8, 16 * f + 2 * r + s, z);
    DivModUnique(16 * f + 2 * r + s, 2, 8 * f + r, s);
  }

  lemma ImageUnpacks(d: ImageDescriptor)
    requires d.localColorTableSize < 8
    ensures var p := ImagePacked(d);
      (p / 128 == 1) == d.localColorTableFlag && (p / 64 % 2 == 1) == d.interlaceFlag
      && (p / 32 % 2 == 1) == d.sortFlag && p % 8 == d.localColorTableSize
  {
    var f, i, s, z: int := Bit(d.localColorTableFlag), Bit(d.interlaceFlag), Bit(d.sortFlag), d.localColorTableSize;
    var p: int := ImagePacked(d);
    assert p == 128 * f + 64 * i + 32 * s + z;
    DivModUnique(p, 128, f, 64 * i + 32 * s + z);
    DivModUnique(p, 64, 2 * f + i, 32 * s + z);
    DivModUnique(2 * f + i, 2, f, i);
    DivModUnique(p, 32, 4 * f + 2 * i + s, z);
    DivModUnique(4 * f + 2 * i + s, 2, 2 * f + i, s);
    DivModUnique(p, 8, 16 * f + 8 * i + 4 * s, z);
  }

  lemma ControlUnpacks(g: GraphicControlExtension)
    ensures var p := ControlPacked(g);
      DisposalOf(p / 4 % 8) == g.disposalMethod && (p / 2 % 2 == 1) == g.userInputFlag
      && (p % 2 == 1) == g.transparentColorFlag
  {
    var c, u, t: int := DisposalCode(g.disposalMethod), Bit(g.userInputFlag), Bit(g.transparentColorFlag);
    var p: int := ControlPacked(g);
    DivModUnique(p, 4, c, 2 * u + t);
    DivModUnique(c, 8, 0, c);
    DivModUnique(p, 2, 2 * c + u, t);
    DivModUnique(2 * c + u, 2, c, u);
  }

  lemma U16AtEncoded(b: seq<byte>, i: nat, v: nat)
    requires U16Fits(v) && i + 2 <= |b| && b[i..i + 2] == EncodeU16(v)
    ensures U16At(b, i) == v
  {
    assert EncodeU16(U16At(b, i)) == EncodeU16(v);
  }

  // ----- Colour tables and header -----

  lemma {:induction false} TriplesOfColorBytes(cs: seq<Color>)
    ensures Triples(ColorBytes(cs)) == cs
    decreases |cs|
  {
    if |cs| > 0 {
      var b := ColorBytes(cs);
      assert b[3..] == ColorBytes(cs[1..]);
      TriplesOfColorBytes(cs[1..]);
    }
  }

  function OptionalTableBytes(t: Option<ColorTable>): seq<byte> {
    if t.Some? then TableBytes(t.value) else []
  }

  lemma ColorTableRoundTrip(t: ColorTable, size: nat, style: TableStyle, rest: seq<byte>)
    requires TableOk(t, size, style)
    ensures ReadColorTable(TableBytes(t) + rest, size, style) == Ok(Parsed(t, rest))
  {
    ReadBytesRoundTrip(TableBytes(t), rest);
    if t.Colors? {
      TriplesOfColorBytes(t.colors);
    }
  }

  lemma OptionalTableRoundTrip(t: Option<ColorTable>, flag: bool, size: nat, style: TableStyle, rest: seq<byte>)
    requires TableFits(t, flag, size, style)
    ensures ReadOptionalTable(OptionalTableBytes(t) + rest, flag, size, style) == Ok(Parsed(t, rest))
  {
    if flag {
      ColorTableRoundTrip(t.value, size, style, rest);
    } else {
      assert OptionalTableBytes(t) + rest == rest;
    }
  }

  function EncodeHeader(h: Header): seq<byte> {
    h.signature + h.version
  }

  lemma HeaderRoundTrip(h: Header, rest: seq<byte>)
    requires HeaderOk(h)
    ensures ReadHeader(EncodeHeader(h) + rest) == Ok(Parsed(h, rest))
  {
    var input := EncodeHeader(h) + rest;
    assert input[..3] == GifSignature && input[3..6] == h.version && input[6..] == rest;
    AsciiIsUtf8(GifSignature);
  }

  // ----- Descriptors -----

  function EncodeScreen(d: LogicalScreenDescriptor): seq<byte>
  {
    EncodeU16(d.width) + EncodeU16(d.height) + [ScreenPacked(d), d.backgroundColorIndex, d.pixelAspectRatio]
    + OptionalTableBytes(d.globalColorTable)
  }

  lemma ScreenRoundTrip(d: LogicalScreenDescriptor, style: TableStyle, rest: seq<byte>)
    requires ScreenOk(d, style)
    ensures ReadLogicalScreenDescriptor(EncodeScreen(d) + rest, style) == Ok(Parsed(d, rest))
  {
    var fixed := EncodeU16(d.width) + EncodeU16(d.height) + [ScreenPacked(d), d.backgroundColorIndex, d.pixelAspectRatio];
    var after := OptionalTableBytes(d.globalColorTable) + rest;
    assert EncodeScreen(d) + rest == fixed + after;
    ReadBytesRoundTrip(fixed, after);
    U16AtEncoded(fixed, 0, d.width);
    U16AtEncoded(fixed, 2, d.height);
    ScreenUnpacks(d);
    OptionalTableRoundTrip(d.globalColorTable, d.globalColorTableFlag, d.globalColorTableSize, style, rest);
  }

  function EncodeDescriptor(d: ImageDescriptor): seq<byte>
  {
    EncodeU16(d.left) + EncodeU16(d.top) + EncodeU16(d.width) + EncodeU16(d.height) + [ImagePacked(d)]
  }

  lemma DescriptorRoundTrip(d: ImageDescriptor, rest: seq<byte>)
    requires DescriptorOk(d)
    ensures ReadImageDescriptor(EncodeDescriptor(d) + rest) == Ok(Parsed(d, rest))
  {
    var fixed := EncodeDescriptor(d);
    ReadBytesRoundTrip(fixed, rest);
    U16AtEncoded(fixed, 0, d.left);
    U16AtEncoded(fixed, 2, d.top);
    U16AtEncoded(fixed, 4, d.width);
    U16AtEncoded(fixed, 6, d.height);
    ImageUnpacks(d);
  }

  // ----- Images and extensions -----

  /** Data written as sub-blocks of at most 255 bytes. */
  function EncodeData(data: seq<byte>): seq<byte> {
    EncodeSubBlocks(Chunked(data))
  }

  lemma DataRoundTrip(data: seq<byte>, rest: seq<byte>)
    ensures ReadDataSubBlocks(EncodeData(data) + rest) == Ok(Parsed(data, rest))
  {
    SubBlocksRoundTrip(Chunked(data), rest);
  }

  function EncodeImage(img: TableBasedImage): seq<byte>
  {
    EncodeDescriptor(img.descriptor) + OptionalTableBytes(img.localColorTable)
    + [img.imageData.lzwMinimumCodeSize] + EncodeData(img.imageData.data)
  }

  lemma ImageRoundTrip(img: TableBasedImage, style: TableStyle, rest: seq<byte>)
    requires ImageOk(img, style)
    ensures ReadTableBasedImage(EncodeImage(img) + rest, style) == Ok(Parsed(img, rest))
  {
    var d := img.descriptor;
    var afterData := EncodeData(img.imageData.data) + rest;
    var afterTable := [img.imageData.lzwMinimumCodeSize] + afterData;
    var afterDescriptor := OptionalTableBytes(img.localColorTable) + afterTable;
    assert EncodeImage(img) + rest == EncodeDescriptor(d) + afterDescriptor;
    DescriptorRoundTrip(d, afterDescriptor);
    OptionalTableRoundTrip(img.localColorTable, d.localColorTableFlag, d.localColorTableSize, style, afterTable);
    ReadU8RoundTrip(img.imageData.lzwMinimumCodeSize, afterData);
    DataRoundTrip(img.imageData.data, rest);
  }

  function EncodeControl(g: GraphicControlExtension): seq<byte>
  {
    [4, ControlPacked(g)] + EncodeU16(g.delayTime) + [g.transparentColorIndex, 0]
  }

  lemma ControlRoundTrip(g: GraphicControlExtension, rest: seq<byte>)
    requires U16Fits(g.delayTime)
    ensures ReadGraphicControlExtension(EncodeControl(g) + rest) == Ok(Parsed(g, rest))
  {
    var fields := [ControlPacked(g)] + EncodeU16(g.delayTime) + [g.transparentColorIndex, 0];
    assert EncodeControl(g) + rest == [4] + (fields + rest);
    assert fields[1..3] == EncodeU16(g.delayTime);
    ReadU8RoundTrip(4, fields + rest);
    ReadBytesRoundTrip(fields, rest);
    U16AtEncoded(fields, 1, g.delayTime);
    ControlUnpacks(g);
  }

  function EncodeApplication(a: ApplicationExtension): seq<byte> {
    [11] + a.identifier + a.authenticationCode + EncodeData(a.data)
  }

  lemma ApplicationRoundTrip(a: ApplicationExtension, rest: seq<byte>)
    requires |a.identifier| == 8 && IsUtf8(a.identifier) && |a.authenticationCode| == 3 && IsUtf8(a.authenticationCode)
    ensures ReadApplicationExtension(EncodeApplication(a) + rest) == Ok(Parsed(a, rest))
  {
    var afterCode := EncodeData(a.data) + rest;
    var afterId := a.authenticationCode + afterCode;
    assert EncodeApplication(a) + rest == [11] + (a.identifier + afterId);
    ReadU8RoundTrip(11, a.identifier + afterId);
    ReadBytesRoundTrip(a.identifier, afterId);
    ReadBytesRoundTrip(a.authenticationCode, afterCode);
    DataRoundTrip(a.data, rest);
  }

  function EncodeComment(c: CommentExtension): seq<byte> {
    EncodeData(c.text)
  }

  lemma CommentRoundTrip(c: CommentExtension, rest: seq<byte>)
    requires IsUtf8(c.text)
    ensures ReadCommentExtension(EncodeComment(c) + rest) == Ok(Parsed(c, rest))
  {
    DataRoundTrip(c.text, rest);
  }

  function EncodePlainText(p: PlainTextExtension): seq<byte>
  {
    [12] + PlainTextFields(p) + EncodeData(p.text)
  }

  function PlainTextFields(p: PlainTextExtension): (b: seq<byte>)
    ensures |b| == 12
  {
    EncodeU16(p.textGridLeft) + EncodeU16(p.textGridTop) + EncodeU16(p.textGridWidth) + EncodeU16(p.textGridHeight)
    + [p.cellWidth, p.cellHeight, p.foregroundColorIndex, p.backgroundColorIndex]
  }

  lemma PlainTextRoundTrip(p: PlainTextExtension, rest: seq<byte>)
    requires U16Fits(p.textGridLeft) && U16Fits(p.textGridTop) && U16Fits(p.textGridWidth) && U16Fits(p.textGridHeight)
    requires IsUtf8(p.text)
    ensures ReadPlainTextExtension(EncodePlainText(p) + rest) == Ok(Parsed(p, rest))
  {
    var fields := PlainTextFields(p);
    var after := EncodeData(p.text) + rest;
    assert EncodePlainText(p) + rest == [12] + (fields + after);
    ReadU8RoundTrip(12, fields + after);
    ReadBytesRoundTrip(fields, after);
    PlainTextGrid(p);
    DataRoundTrip(p.text, rest);
  }

  /** The grid fields are read back from the twelve fixed bytes. */
  lemma PlainTextGrid(p: PlainTextExtension)
    requires U16Fits(p.textGridLeft) && U16Fits(p.textGridTop) && U16Fits(p.textGridWidth) && U16Fits(p.textGridHeight)
    ensures var b := PlainTextFields(p);
      U16At(b, 0) == p.textGridLeft && U16At(b, 2) == p.textGridTop
      && U16At(b, 4) == p.textGridWidth && U16At(b, 6) == p.textGridHeight
      && b[8] == p.cellWidth && b[9] == p.cellHeight
      && b[10] == p.foregroundColorIndex && b[11] == p.backgroundColorIndex
  {
    var b := PlainTextFields(p);
    assert b[0..2] == EncodeU16(p.textGridLeft) && b[2..4] == EncodeU16(p.textGridTop);
    assert b[4..6] == EncodeU16(p.textGridWidth) && b[6..8] == EncodeU16(p.textGridHeight);
    U16AtEncoded(b, 0, p.textGridLeft);
    U16AtEncoded(b, 2, p.textGridTop);
    U16AtEncoded(b, 4, p.textGridWidth);
    U16AtEncoded(b, 6, p.textGridHeight);
  }

  // ----- Blocks and files -----

  /** The introducer, and for an extension its label, that announces `b`. */
  function Introducer(b: DataBlock): seq<byte> {
    match b
    case ImageBlock(_) => [ImageSeparator]
    case GraphicControlBlock(_) => [ExtensionIntroducerByte, GraphicControlLabelByte]
    case CommentBlock(_) => [ExtensionIntroducerByte, CommentLabelByte]
    case PlainTextBlock(_) => [ExtensionIntroducerByte, PlainTextLabelByte]
    case ApplicationBlock(_) => [ExtensionIntroducerByte, ApplicationLabelByte]
  }

  function KindOf(b: DataBlock): BlockType {
    match b
    case ImageBlock(_) => ImageIntroducer
    case GraphicControlBlock(_) => ExtensionIntroducer(GraphicControlLabel)
    case CommentBlock(_) => ExtensionIntroducer(CommentLabel)
    case PlainTextBlock(_) => ExtensionIntroducer(PlainTextLabel)
    case ApplicationBlock(_) => ExtensionIntroducer(ApplicationLabel)
  }

  function EncodeBody(b: DataBlock): seq<byte>
  {
    match b
    case ImageBlock(img) => EncodeImage(img)
    case GraphicControlBlock(g) => EncodeControl(g)
    case CommentBlock(c) => EncodeComment(c)
    case PlainTextBlock(p) => EncodePlainText(p)
    case ApplicationBlock(a) => EncodeApplication(a)
  }

  function EncodeBlock(b: DataBlock): seq<byte>
  {
    Introducer(b) + EncodeBody(b)
  }

  lemma IntroducerRoundTrip(b: DataBlock, after: seq<byte>)
    ensures ReadBlockType(Introducer(b) + after) == Ok(Parsed(KindOf(b), after))
  {
    var input := Introducer(b) + after;
    if b.ImageBlock? {
      assert input[1..] == after;
    } else {
      assert input[1..][1..] == after;
    }
  }

  lemma BodyRoundTrip(b: DataBlock, style: TableStyle, rest: seq<byte>)
    requires BlockOk(b, style)
    ensures ReadDataBlock(KindOf(b), EncodeBody(b) + rest, style) == Ok(Parsed(b, rest))
  {
    match b
    case ImageBlock(img) => ImageBlockRoundTrip(img, style, rest);
    case GraphicControlBlock(g) => ControlBlockRoundTrip(g, style, rest);
    case CommentBlock(c) => CommentBlockRoundTrip(c, style, rest);
    case PlainTextBlock(p) => PlainTextBlockRoundTrip(p, style, rest);
    case ApplicationBlock(a) => ApplicationBlockRoundTrip(a, style, rest);
  }

  lemma ImageBlockRoundTrip(img: TableBasedImage, style: TableStyle, rest: seq<byte>)
    requires ImageOk(img, style)
    ensures ReadDataBlock(ImageIntroducer, EncodeImage(img) + rest, style) == Ok(Parsed(ImageBlock(img), rest))
  {
    ImageRoundTrip(img, style, rest);
  }

  lemma ControlBlockRoundTrip(g: GraphicControlExtension, style: TableStyle, rest: seq<byte>)
    requires U16Fits(g.delayTime)
    ensures ReadDataBlock(ExtensionIntroducer(GraphicControlLabel), EncodeControl(g) + rest, style)
      == Ok(Parsed(GraphicControlBlock(g), rest))
  {
    ControlRoundTrip(g, rest);
  }

  lemma CommentBlockRoundTrip(c: CommentExtension, style: TableStyle, rest: seq<byte>)
    requires IsUtf8(c.text)
    ensures ReadDataBlock(ExtensionIntroducer(CommentLabel), EncodeComment(c) + rest, style)
      == Ok(Parsed(CommentBlock(c), rest))
  {
    CommentRoundTrip(c, rest);
  }

  lemma PlainTextBlockRoundTrip(p: PlainTextExtension, style: TableStyle, rest: seq<byte>)
    requires U16Fits(p.textGridLeft) && U16Fits(p.textGridTop) && U16Fits(p.textGridWidth) && U16Fits(p.textGridHeight)
    requires IsUtf8(p.text)
    ensures ReadDataBlock(ExtensionIntroducer(PlainTextLabel), EncodePlainText(p) + rest, style)
      == Ok(Parsed(PlainTextBlock(p), rest))
  {
    PlainTextRoundTrip(p, rest);
  }

  lemma ApplicationBlockRoundTrip(a: ApplicationExtension, style: TableStyle, rest: seq<byte>)
    requires |a.identifier| == 8 && IsUtf8(a.identifier) && |a.authenticationCode| == 3 && IsUtf8(a.authenticationCode)
    ensures ReadDataBlock(ExtensionIntroducer(ApplicationLabel), EncodeApplication(a) + rest, style)
      == Ok(Parsed(ApplicationBlock(a), rest))
  {
    ApplicationRoundTrip(a, rest);
  }

  /** A written block is announced as its kind and read back. */
  lemma BlockRoundTrip(b: DataBlock, style: TableStyle, after: seq<byte>)
    requires BlockOk(b, style)
    ensures !KindOf(b).TrailerByte?
    ensures ReadBlockType(EncodeBlock(b) + after) == Ok(Parsed(KindOf(b), EncodeBody(b) + after))
    ensures ReadDataBlock(KindOf(b), EncodeBody(b) + after, style) == Ok(Parsed(b, after))
  {
    assert EncodeBlock(b) + after == Introducer(b) + (EncodeBody(b) + after);
    IntroducerRoundTrip(b, EncodeBody(b) + after);
    BodyRoundTrip(b, style, after);
  }

  /** The blocks in order, then the trailer. */
  function EncodeBlocks(bs: seq<DataBlock>): seq<byte>
  {
    if |bs| == 0 then [Trailer] else EncodeBlock(bs[0]) + EncodeBlocks(bs[1..])
  }

  /** The block loop gives back the written blocks in their order and stops
      at the trailer, leaving what follows it unread. */
  lemma {:induction false} BlocksRoundTrip(bs: seq<DataBlock>, style: TableStyle, rest: seq<byte>)
    requires BlocksOk(bs, style)
    ensures ParseBlocks(EncodeBlocks(bs) + rest, style) == Ok(Parsed(bs, rest))
    decreases |bs|
  {
    if |bs| == 0 {
      TrailerRoundTrip(rest);
    } else {
      BlocksOkSplit(bs, style);
      BlocksRoundTrip(bs[1..], style, rest);
      FirstBlockThenBlocks(bs, style, rest);
    }
  }

  /** The trailer alone ends the loop. */
  lemma TrailerRoundTrip(rest: seq<byte>)
    ensures forall style :: ParseBlocks(EncodeBlocks([]) + rest, style) == Ok(Parsed([], rest))
  {
    assert (EncodeBlocks([]) + rest)[1..] == rest;
  }

  lemma FirstBlockThenBlocks(bs: seq<DataBlock>, style: TableStyle, rest: seq<byte>)
    requires |bs| > 0 && BlockOk(bs[0], style)
    requires ParseBlocks(EncodeBlocks(bs[1..]) + rest, style) == Ok(Parsed(bs[1..], rest))
    ensures ParseBlocks(EncodeBlocks(bs) + rest, style) == Ok(Parsed(bs, rest))
  {
    EncodeBlocksFirst(bs, rest);
    BlockThenBlocks(bs[0], bs[1..], style, EncodeBlocks(bs[1..]) + rest, rest);
    assert bs == [bs[0]] + bs[1..];
  }

  lemma BlocksOkSplit(bs: seq<DataBlock>, style: TableStyle)
    requires BlocksOk(bs, style) && |bs| > 0
    ensures BlockOk(bs[0], style) && BlocksOk(bs[1..], style)
  {
    assert forall i :: 0 <= i < |bs| - 1 ==> bs[1..][i] == bs[i + 1];
  }

  lemma EncodeBlocksFirst(bs: seq<DataBlock>, rest: seq<byte>)
    requires |bs| > 0
    ensures EncodeBlocks(bs) + rest == EncodeBlock(bs[0]) + (EncodeBlocks(bs[1..]) + rest)
  {
  }

  /** A written block in front of a loop that reads `tail` is read first. */
  lemma BlockThenBlocks(b: DataBlock, tail: seq<DataBlock>, style: TableStyle, after: seq<byte>, rest: seq<byte>)
    requires BlockOk(b, style) && ParseBlocks(after, style) == Ok(Parsed(tail, rest))
    ensures ParseBlocks(EncodeBlock(b) + after, style) == Ok(Parsed([b] + tail, rest))
  {
    BlockRoundTrip(b, style, after);
    ParseBlocksStep(EncodeBlock(b) + after, style, KindOf(b), EncodeBody(b) + after, b, after);
  }

  function EncodeFile(f: GifFile): seq<byte>
  {
    EncodeHeader(f.header) + EncodeScreen(f.logicalScreenDescriptor) + EncodeBlocks(f.blocks)
  }

  /** Parsing a written file gives it back, whatever follows the trailer. */
  lemma FileRoundTrip(f: GifFile, style: TableStyle, rest: seq<byte>)
    requires FileOk(f, style)
    ensures ParseWith(EncodeFile(f) + rest, style) == Ok(f)
  {
    var afterScreen := EncodeBlocks(f.blocks) + rest;
    var afterHeader := EncodeScreen(f.logicalScreenDescriptor) + afterScreen;
    FileSplits(f, rest);
    HeaderRoundTrip(f.header, afterHeader);
    ScreenRoundTrip(f.logicalScreenDescriptor, style, afterScreen);
    BlocksRoundTrip(f.blocks, style, rest);
    ParseWithParts(EncodeFile(f) + rest, style, f.header, afterHeader,
                   f.logicalScreenDescriptor, afterScreen, f.blocks, rest);
  }

  lemma FileSplits(f: GifFile, rest: seq<byte>)
    ensures EncodeFile(f) + rest
      == EncodeHeader(f.header) + (EncodeScreen(f.logicalScreenDescriptor) + (EncodeBlocks(f.blocks) + rest))
  {
  }

  /** `Parser::parse` and `Decoder::decode` each give back a file written
      with tables in their own form. */
  lemma ParseAndDecodeRoundTrip(f: GifFile, g: GifFile)
    requires FileOk(f, AsColors) && FileOk(g, AsBytes)
    ensures Parse(EncodeFile(f)) == Ok(f) && Decode(EncodeFile(g)) == Ok(g)
  {
    FileRoundTrip(f, AsColors, []);
    FileRoundTrip(g, AsBytes, []);
    assert EncodeFile(f) + [] == EncodeFile(f) && EncodeFile(g) + [] == EncodeFile(g);
  }
}

=== FILE: lzw.dfy ===
/** The variable-width LZW decompressor of src/decompressor.rs: a string table
    kept as ranges over one flat list of colour indices, the clear and end
    control codes, early change of the code width and the 12-bit cap. */
module Lzw {
  import opened Results
  import opened Bits
  import opened CodeReading

  /** Codes never grow wider than this. */
  const MaxCodeSize: nat := 12

  /** A string-table entry: a run of the flat value list, or a control code. */
  datatype CodeValue = Range(begin: nat, end: nat) | Single(code: nat)

  /** The decompressor's state. The byte slice it decodes lives in the code
      reader that is threaded alongside. */
  datatype Decompressor = Decompressor(
    minCodeSize: nat,
    clearCode: nat,
    codeValues: seq<nat>,
    codeTable: seq<CodeValue>,
    codeSize: nat)
  {
    /** The clear code and the end-of-information code right after it. */
    predicate IsControl(i: nat) {
      i == clearCode || i == clearCode + 1
    }
  }

  /** Why decoding failed; src/decompressor.rs reports these as strings. */
  datatype DecodeError =
    | InvalidCode(code: nat)
    | InvalidPrevCode(code: nat)
    | InvalidSingleCode(code: nat)
    | InvalidClearCode(code: nat)
    | MissingClearCode
    | PrevOutOfRange(code: nat)
    | CodeBeyondTable(code: nat)

  /** The outcome of `decompress_until_clear`: whether another round follows,
      the reader after it and the colour indices produced so far. */
  datatype Round = Round(more: bool, reader: CodeReader, output: seq<nat>)

  /** The minimum code sizes this model covers. */
  predicate SupportedMinCodeSize(min: nat) {
    2 <= min <= 11
  }

  predicate AllBelow(s: seq<nat>, n: nat) {
    forall i :: 0 <= i < |s| ==> s[i] < n
  }

  /** The shape every reachable state has: the two control codes in place,
      every other entry a non-empty run of the value list, every value a
      colour index, and the table short enough for the current code width. */
  predicate Valid(d: Decompressor) {
    && SupportedMinCodeSize(d.minCodeSize)
    && d.clearCode == Pow2(d.minCodeSize)
    && d.minCodeSize < d.codeSize <= MaxCodeSize
    && d.clearCode + 2 <= |d.codeTable| < Pow2(d.codeSize)
    && d.codeTable[d.clearCode] == Single(d.clearCode)
    && d.codeTable[d.clearCode + 1] == Single(d.clearCode + 1)
    && (forall i :: 0 <= i < |d.codeTable| && !d.IsControl(i) ==>
          d.codeTable[i].Range? && d.codeTable[i].begin < d.codeTable[i].end <= |d.codeValues|)
    && AllBelow(d.codeValues, d.clearCode)
  }

  /** Code `i` stands for a string of colour indices. */
  predicate HasEntry(d: Decompressor, i: nat) {
    i < |d.codeTable| && !d.IsControl(i)
  }

  /** The string of colour indices code `i` stands for. */
  function Entry(d: Decompressor, i: nat): (s: seq<nat>)
    requires Valid(d) && HasEntry(d, i)
    ensures |s| >= 1 && AllBelow(s, d.clearCode)
  {
    var e := d.codeTable[i];
    assert forall k :: e.begin <= k < e.end ==> d.codeValues[k] < d.clearCode;
    d.codeValues[e.begin..e.end]
  }

  /** `Decompressor::new`: no table yet, codes one bit wider than the minimum. */
  function New(min: nat): (d: Decompressor)
    ensures d.minCodeSize == min && d.clearCode == Pow2(min) && d.codeSize == min + 1
    ensures |d.codeTable| == 0 && |d.codeValues| == 0
  {
    Decompressor(min, Pow2(min), [], [], min + 1)
  }

  /** `Decompressor::reset`: every colour index stands for itself, followed by
      the clear and end codes, read at the initial width. */
  function Reset(d: Decompressor): (d': Decompressor)
    requires SupportedMinCodeSize(d.minCodeSize) && d.clearCode == Pow2(d.minCodeSize)
    ensures Valid(d')
    ensures d'.minCodeSize == d.minCodeSize && d'.clearCode == d.clearCode
    ensures d'.codeSize == d.minCodeSize + 1
    ensures |d'.codeTable| == d.clearCode + 2
    ensures forall i :: 0 <= i < d.clearCode ==> HasEntry(d', i) && Entry(d', i) == [i]
  {
    var n := d.clearCode;
    var d' := Decompressor(d.minCodeSize, n, seq(n, (i: nat) => i),
                           seq(n, (i: nat) => Range(i, i + 1)) + [Single(n), Single(n + 1)],
                           d.minCodeSize + 1);
    InitialTableFits(d.minCodeSize);
    assert forall i :: 0 <= i < n ==> d'.codeValues[i..i + 1] == [i];
    d'
  }

  /** With at least two bits of minimum size the literals and the two control
      codes fit the initial width. */
  lemma InitialTableFits(min: nat)
    requires SupportedMinCodeSize(min)
    ensures Pow2(min) + 2 < Pow2(min + 1)
  {
    Pow2Monotone(2, min);
    assert Pow2(2) == 4;
  }

  /** `d2` is `d` with `entry` appended as the next code, the old entries
      untouched and the width grown when the new code was the last one the
      old width could name (early change). */
  ghost predicate GrowsBy(d: Decompressor, d2: Decompressor, entry: seq<nat>)
    requires Valid(d) && Valid(d2)
  {
    && d2.minCodeSize == d.minCodeSize && d2.clearCode == d.clearCode
    && |d2.codeTable| == |d.codeTable| + 1
    && HasEntry(d2, |d.codeTable|)
    && Entry(d2, |d.codeTable|) == entry
    && (forall i :: HasEntry(d, i) ==> HasEntry(d2, i) && Entry(d2, i) == Entry(d, i))
    && d2.codeSize == (if |d.codeTable| == Pow2(d.codeSize) - 1 then d.codeSize + 1 else d.codeSize)
  }

  /** Appending a table entry: `None` when the new code would not fit in
      twelve bits, where `decompress_until_clear` stops adding and demands a
      clear code. */
  function AddEntry(d: Decompressor, entry: seq<nat>): (o: Option<Decompressor>)
    requires Valid(d) && |entry| >= 1 && AllBelow(entry, d.clearCode)
    ensures o.None? <==> |d.codeTable| == Pow2(d.codeSize) - 1 && d.codeSize == MaxCodeSize
    ensures o.Some? ==> Valid(o.value) && GrowsBy(d, o.value, entry)
  {
    var n := |d.codeValues|;
    var grown := d.(codeValues := d.codeValues + entry,
                    codeTable := d.codeTable + [Range(n, n + |entry|)]);
    if |d.codeTable| == Pow2(d.codeSize) - 1 then
      if d.codeSize == MaxCodeSize then
        None
      else
        var d2 := grown.(codeSize := d.codeSize + 1);
        AppendKeepsEntries(d, d2, entry);
        Some(d2)
    else
      AppendKeepsEntries(d, grown, entry);
      Some(grown)
  }

  lemma AppendKeepsEntries(d: Decompressor, d2: Decompressor, entry: seq<nat>)
    requires Valid(d) && |entry| >= 1 && AllBelow(entry, d.clearCode)
    requires d2.minCodeSize == d.minCodeSize && d2.clearCode == d.clearCode
    requires d2.codeValues == d.codeValues + entry
    requires d2.codeTable == d.codeTable + [Range(|d.codeValues|, |d.codeValues| + |entry|)]
    requires d2.codeSize == (if |d.codeTable| == Pow2(d.codeSize) - 1 then d.codeSize + 1 else d.codeSize)
    requires d2.codeSize <= MaxCodeSize
    ensures Valid(d2) && GrowsBy(d, d2, entry)
  {
    AppendValid(d, d2, entry);
    assert d2.codeValues[|d.codeValues|..|d2.codeValues|] == entry;
    forall i: nat | HasEntry(d, i)
      ensures HasEntry(d2, i) && Entry(d2, i) == Entry(d, i)
    {
      var e := d.codeTable[i];
      assert d2.codeTable[i] == e;
      assert d2.codeValues[e.begin..e.end] == d.codeValues[e.begin..e.end];
    }
  }

  lemma AppendValid(d: Decompressor, d2: Decompressor, entry: seq<nat>)
    requires Valid(d) && |entry| >= 1 && AllBelow(entry, d.clearCode)
    requires d2.minCodeSize == d.minCodeSize && d2.clearCode == d.clearCode
    requires d2.codeValues == d.codeValues + entry
    requires d2.codeTable == d.codeTable + [Range(|d.codeValues|, |d.codeValues| + |entry|)]
    requires d2.codeSize == (if |d.codeTable| == Pow2(d.codeSize) - 1 then d.codeSize + 1 else d.codeSize)
    requires d2.codeSize <= MaxCodeSize
    ensures Valid(d2)
  {
    assert |d2.codeTable| < Pow2(d2.codeSize);
    forall i | 0 <= i < |d2.codeTable| && !d2.IsControl(i)
      ensures d2.codeTable[i].Range? && d2.codeTable[i].begin < d2.codeTable[i].end <= |d2.codeValues|
    {
      if i < |d.codeTable| {
        assert d2.codeTable[i] == d.codeTable[i];
      }
    }
    assert AllBelow(d2.codeValues, d.clearCode);
  }

  /** `expect_clear_code`: the next code must be the clear code. */
  function ExpectClearCode(d: Decompressor, r: CodeReader): (o: Result<CodeReader, DecodeError>)
    requires d.codeSize <= 16 && r.Valid()
    ensures o.Ok? <==>
      && r.Position() < 8 * |r.data|
      && r.Position() + d.codeSize <= 8 * |r.data|
      && BitsValue(r.data, r.Position(), d.codeSize) == d.clearCode
    ensures o.Ok? ==> o.value.Valid() && o.value.data == r.data
                      && o.value.Position() == r.Position() + d.codeSize
  {
    match Read(r, d.codeSize)
    case None => Err(MissingClearCode)
    case Some((c, r2)) => if c != d.clearCode then Err(InvalidClearCode(c)) else Ok(r2)
  }

  /** The outcome of one pass of the decoding loop. */
  datatype Step =
    | Continue(dec: Decompressor, reader: CodeReader, prev: nat, output: seq<nat>)
    | Finish(round: Round)
    | Fail(error: DecodeError)

  /** The code whose string a pass emits: the code read, or for a code past
      the table (which `decompress_until_clear` treats alike) the entry the pass adds. */
  function EmittedCode(c: nat, tableLength: nat): nat {
    if c < tableLength then c else tableLength
  }

  /** A pass that goes on: it consumed code `c`, emitted that code's string
      and added the previous code's string extended by the first index of the
      emitted one. */
  ghost predicate Continues(d: Decompressor, r: CodeReader, prev: nat, out: seq<nat>, strict: bool,
                      d2: Decompressor, r2: CodeReader, c: nat, out2: seq<nat>)
    requires Valid(d) && r.Valid()
  {
    && Read(r, d.codeSize) == Some((c, r2))
    && HasEntry(d, prev)
    && Valid(d2)
    && HasEntry(d2, EmittedCode(c, |d.codeTable|))
    && GrowsBy(d, d2, Entry(d, prev) + [Entry(d2, EmittedCode(c, |d.codeTable|))[0]])
    && out2 == out + Entry(d2, EmittedCode(c, |d.codeTable|))
    && (strict ==> c <= |d.codeTable|)
  }

  /** A round that ends keeps the earlier output as a prefix, adds only colour
      indices, and has consumed a code when another round follows. */
  ghost predicate Finishes(d: Decompressor, r: CodeReader, out: seq<nat>, round: Round)
    requires r.Valid()
  {
    && round.reader.Valid()
    && round.reader.data == r.data
    && round.reader.Position() >= r.Position()
    && (round.more ==> round.reader.Position() > r.Position())
    && out <= round.output
    && AllBelow(round.output, d.clearCode)
  }

  /** Adding `entry` once `out2` has been emitted: at the 12-bit cap the next
      code must be the clear code and the round ends. */
  function Extend(d: Decompressor, r2: CodeReader, c: nat, out2: seq<nat>, entry: seq<nat>): (s: Step)
    requires Valid(d) && r2.Valid() && |entry| >= 1 && AllBelow(entry, d.clearCode)
    ensures s.Continue? ==>
      Valid(s.dec) && GrowsBy(d, s.dec, entry) && s.reader == r2 && s.prev == c && s.output == out2
    ensures s.Finish? ==>
      && s.round.more && s.round.output == out2
      && s.round.reader.Valid() && s.round.reader.data == r2.data
      && s.round.reader.Position() == r2.Position() + d.codeSize
    ensures s.Continue? <==> AddEntry(d, entry).Some?
    ensures s.Finish? <==>
      AddEntry(d, entry).None? && Read(r2, d.codeSize).Some? && Read(r2, d.codeSize).value.0 == d.clearCode
    ensures s.Finish? ==> s.round.reader == Read(r2, d.codeSize).value.1
    ensures AddEntry(d, entry).None? && Read(r2, d.codeSize).None? ==> s == Fail(MissingClearCode)
    ensures AddEntry(d, entry).None? && Read(r2, d.codeSize).Some? && Read(r2, d.codeSize).value.0 != d.clearCode
      ==> s == Fail(InvalidClearCode(Read(r2, d.codeSize).value.0))
  {
    match AddEntry(d, entry)
    case None =>
      (match ExpectClearCode(d, r2)
       case Err(e) => Fail(e)
       case Ok(r3) => Finish(Round(true, r3, out2)))
    case Some(d2) => Continue(d2, r2, c, out2)
  }

  /** How a pass that reached `Extend` ends: with `cur` emitted and, when it
      goes on, `cur` being the string of the code read. */
  lemma ExtendEnds(d: Decompressor, r: CodeReader, c: nat, r2: CodeReader, prev: nat,
                   out: seq<nat>, strict: bool, cur: seq<nat>, s: Step)
    requires Valid(d) && r.Valid() && AllBelow(out, d.clearCode)
    requires Read(r, d.codeSize) == Some((c, r2))
    requires HasEntry(d, prev) && |cur| >= 1 && AllBelow(cur, d.clearCode)
    requires strict ==> c <= |d.codeTable|
    requires c < |d.codeTable| ==> HasEntry(d, c) && Entry(d, c) == cur
    requires c >= |d.codeTable| ==> cur == Entry(d, prev) + [Entry(d, prev)[0]]
    requires s == Extend(d, r2, c, out + cur, Entry(d, prev) + [cur[0]])
    ensures s.Continue? ==> Continues(d, r, prev, out, strict, s.dec, s.reader, s.prev, s.output)
    ensures s.Finish? ==> Finishes(d, r, out, s.round)
  {
    var ec := EmittedCode(c, |d.codeTable|);
    if s.Continue? {
      assert HasEntry(s.dec, ec) && Entry(s.dec, ec) == cur;
    }
    if s.Finish? {
      assert out <= out + cur;
    }
  }

  /** A code already in the table that stands for the run `b..e`: emit it and
      add the previous string extended by its first index. */
  function KnownCode(d: Decompressor, r: CodeReader, c: nat, r2: CodeReader, b: nat, e: nat,
                     prev: nat, out: seq<nat>, strict: bool): (s: Step)
    requires Valid(d) && r.Valid() && AllBelow(out, d.clearCode)
    requires Read(r, d.codeSize) == Some((c, r2))
    requires HasEntry(d, c) && d.codeTable[c] == Range(b, e)
    ensures s.Continue? ==> Continues(d, r, prev, out, strict, s.dec, s.reader, s.prev, s.output)
    ensures s.Finish? ==> Finishes(d, r, out, s.round)
    ensures prev >= |d.codeTable| ==> s == Fail(PrevOutOfRange(prev))
    ensures prev < |d.codeTable| && d.codeTable[prev].Single? ==> s == Fail(InvalidPrevCode(prev))
    ensures HasEntry(d, prev) && AddEntry(d, Entry(d, prev) + [Entry(d, c)[0]]).Some? ==> s.Continue?
  {
    var cur := d.codeValues[b..e];
    assert cur == Entry(d, c);
    if prev >= |d.codeTable| then
      Fail(PrevOutOfRange(prev))
    else
      match d.codeTable[prev]
      case Range(pb, pe) =>
        assert d.codeValues[pb..pe] == Entry(d, prev);
        var s := Extend(d, r2, c, out + cur, d.codeValues[pb..pe] + [d.codeValues[b]]);
        ExtendEnds(d, r, c, r2, prev, out, strict, cur, s);
        s
      case Single(_) => Fail(InvalidPrevCode(prev))
  }

  /** A code past the table (`decompress_until_clear` only expects the next free code
      here): emit and add the previous string extended by its own first
      index. */
  function NewCode(d: Decompressor, r: CodeReader, c: nat, r2: CodeReader,
                   prev: nat, out: seq<nat>, strict: bool): (s: Step)
    requires Valid(d) && r.Valid() && AllBelow(out, d.clearCode)
    requires Read(r, d.codeSize) == Some((c, r2))
    requires c >= |d.codeTable| && (strict ==> c == |d.codeTable|)
    ensures s.Continue? ==> Continues(d, r, prev, out, strict, s.dec, s.reader, s.prev, s.output)
    ensures s.Finish? ==> Finishes(d, r, out, s.round)
    ensures prev >= |d.codeTable| ==> s == Fail(PrevOutOfRange(prev))
    ensures prev < |d.codeTable| && d.codeTable[prev].Single? ==> s == Fail(InvalidPrevCode(prev))
    ensures HasEntry(d, prev) && AddEntry(d, Entry(d, prev) + [Entry(d, prev)[0]]).Some? ==> s.Continue?
  {
    if prev >= |d.codeTable| then
      Fail(PrevOutOfRange(prev))
    else
      match d.codeTable[prev]
      case Range(pb, pe) =>
        assert d.codeValues[pb..pe] == Entry(d, prev);
        var entry := d.codeValues[pb..pe] + [d.codeValues[pb]];
        assert entry[0] == Entry(d, prev)[0] == d.codeValues[pb];
        assert entry == Entry(d, prev) + [entry[0]] == Entry(d, prev) + [Entry(d, prev)[0]];
        var s := Extend(d, r2, c, out + entry, entry);
        ExtendEnds(d, r, c, r2, prev, out, strict, entry, s);
        s
      case Single(_) => Fail(InvalidPrevCode(prev))
  }

  /** One pass of the loop in `decompress_until_clear`. `strict` rejects a
      code beyond the next free one, which src/decompressor.rs does not. */
  function DecodeStep(d: Decompressor, r: CodeReader, prev: nat, out: seq<nat>, strict: bool): (s: Step)
    requires Valid(d) && r.Valid() && AllBelow(out, d.clearCode)
    ensures s.Continue? ==>
      Continues(d, r, prev, out, strict, s.dec, s.reader, s.prev, s.output)
    ensures s.Finish? ==> Finishes(d, r, out, s.round)
    ensures Read(r, d.codeSize).None? ==> s == Finish(Round(false, r, out))
    ensures Read(r, d.codeSize).Some? && Read(r, d.codeSize).value.0 == d.clearCode ==>
      s == Finish(Round(true, Read(r, d.codeSize).value.1, out))
    ensures Read(r, d.codeSize).Some? && Read(r, d.codeSize).value.0 == d.clearCode + 1 ==>
      s == Finish(Round(false, Read(r, d.codeSize).value.1, out))
    ensures strict && Read(r, d.codeSize).Some? && Read(r, d.codeSize).value.0 > |d.codeTable| ==>
      s == Fail(CodeBeyondTable(Read(r, d.codeSize).value.0))
  {
    match Read(r, d.codeSize)
    case None => Finish(Round(false, r, out))
    case Some((c, r2)) =>
      if c < |d.codeTable| then
        match d.codeTable[c]
        case Range(b, e) => KnownCode(d, r, c, r2, b, e, prev, out, strict)
        case Single(code) =>
          if code == d.clearCode then
            Finish(Round(true, r2, out))
          else if code == d.clearCode + 1 then
            Finish(Round(false, r2, out))
          else
            Fail(InvalidSingleCode(code))
      else if strict && c > |d.codeTable| then
        Fail(CodeBeyondTable(c))
      else
        NewCode(d, r, c, r2, prev, out, strict)
  }

  /** The loop of `decompress_until_clear` after its first code. */
  function Loop(d: Decompressor, r: CodeReader, prev: nat, out: seq<nat>, strict: bool): (o: Result<Round, DecodeError>)
    requires Valid(d) && r.Valid() && AllBelow(out, d.clearCode)
    ensures o.Ok? ==> Finishes(d, r, out, o.value)
    decreases r.Remaining()
  {
    match DecodeStep(d, r, prev, out, strict)
    case Continue(d2, r2, c, out2) =>
      var o := Loop(d2, r2, c, out2, strict);
      assert o.Ok? ==> out <= o.value.output by {
        assert out <= out2;
      }
      o
    case Finish(round) => Ok(round)
    case Fail(e) => Err(e)
  }

  /** `decompress_until_clear`: the first code after a clear must stand for a
      string (in a fresh table: a literal colour index); it is emitted and
      becomes the previous code of the loop. */
  function DecompressUntilClear(d: Decompressor, r: CodeReader, out: seq<nat>, strict: bool): (o: Result<Round, DecodeError>)
    requires Valid(d) && r.Valid() && AllBelow(out, d.clearCode)
    ensures o.Ok? ==> Finishes(d, r, out, o.value)
    ensures Read(r, d.codeSize).None? ==> o == Ok(Round(false, r, out))
    ensures Read(r, d.codeSize).Some? && !HasEntry(d, Read(r, d.codeSize).value.0) ==>
      o == Err(InvalidCode(Read(r, d.codeSize).value.0))
    ensures Read(r, d.codeSize).Some? && HasEntry(d, Read(r, d.codeSize).value.0) ==>
      var (c, r2) := Read(r, d.codeSize).value;
      o == Loop(d, r2, c, out + Entry(d, c), strict)
  {
    match Read(r, d.codeSize)
    case None => Ok(Round(false, r, out))
    case Some((c, r2)) =>
      if c < |d.codeTable| && d.codeTable[c].Range? then
        assert d.codeValues[d.codeTable[c].begin..d.codeTable[c].end] == Entry(d, c);
        var out2 := out + d.codeValues[d.codeTable[c].begin..d.codeTable[c].end];
        var o := Loop(d, r2, c, out2, strict);
        assert o.Ok? ==> out <= o.value.output by {
          assert out <= out2;
        }
        o
      else
        Err(InvalidCode(c))
  }

  /** The loop of `decompress`: reset the table and decode until an end code,
      the end of the data or an error. */
  function Rounds(min: nat, r: CodeReader, out: seq<nat>, strict: bool): (o: Result<seq<nat>, DecodeError>)
    requires SupportedMinCodeSize(min) && r.Valid() && AllBelow(out, Pow2(min))
    ensures o.Ok? ==> out <= o.value && AllBelow(o.value, Pow2(min))
    decreases r.Remaining()
  {
    var d := Reset(New(min));
    match DecompressUntilClear(d, r, out, strict)
    case Err(e) => Err(e)
    case Ok(Round(more, r2, out2)) =>
      if more then
        var o := Rounds(min, r2, out2, strict);
        assert o.Ok? ==> out <= o.value by {
          assert out <= out2;
        }
        o
      else
        Ok(out2)
  }

  /** `Decompressor::decompress`, with `strict` choosing between the
      corrected handling of codes beyond the table and that of
      src/decompressor.rs. */
  function DecompressWith(data: seq<byte>, min: nat, strict: bool): (o: Result<seq<nat>, DecodeError>)
    requires SupportedMinCodeSize(min)
    ensures o.Ok? ==> AllBelow(o.value, Pow2(min))
    ensures o.Ok? ==> min + 1 <= 8 * |data| && BitsValue(data, 0, min + 1) == Pow2(min)
  {
    var d := New(min);
    var r := NewReader(data);
    var r2 :- ExpectClearCode(d, r);
    Rounds(min, r2, [], strict)
  }

  /** The decompressor with codes beyond the next free slot rejected. */
  function Decompress(data: seq<byte>, min: nat): (o: Result<seq<nat>, DecodeError>)
    requires SupportedMinCodeSize(min)
    ensures o.Ok? ==> AllBelow(o.value, Pow2(min))
    ensures o.Ok? ==> min + 1 <= 8 * |data| && BitsValue(data, 0, min + 1) == Pow2(min)
  {
    DecompressWith(data, min, true)
  }

  /** The decompressor as src/decompressor.rs writes it. */
  function DecompressAsWritten(data: seq<byte>, min: nat): (o: Result<seq<nat>, DecodeError>)
    requires SupportedMinCodeSize(min)
    ensures o.Ok? ==> AllBelow(o.value, Pow2(min))
    ensures o.Ok? ==> min + 1 <= 8 * |data| && BitsValue(data, 0, min + 1) == Pow2(min)
  {
    DecompressWith(data, min, false)
  }
}

=== FILE: lzw_findings.dfy ===
/** What happens to a code beyond the next free table slot. `decompress_until_clear`
    (src/decompressor.rs) treats any code past the table like the next free code (the "KwKwK" case) and
    goes on, so a stream that skips a slot still decodes; a GIF decoder is
    expected to reject it. The corrected decoder (`Decompress`) does, and it
    differs from the one as written (`DecompressAsWritten`) on no other input. */
module LzwFindings {
  import opened Results
  import opened Bits
  import opened CodeReading
  import opened Lzw

  predicate BeyondTable<T>(o: Result<T, DecodeError>) {
    o.Err? && o.error.CodeBeyondTable?
  }

  predicate StepBeyondTable(s: Step) {
    s.Fail? && s.error.CodeBeyondTable?
  }

  /** One pass: the strictness flag only decides codes past the next free one. */
  lemma StepAgreement(d: Decompressor, r: CodeReader, prev: nat, out: seq<nat>)
    requires Valid(d) && r.Valid() && AllBelow(out, d.clearCode)
    ensures StepBeyondTable(DecodeStep(d, r, prev, out, true))
         || DecodeStep(d, r, prev, out, false) == DecodeStep(d, r, prev, out, true)
  {
    match Read(r, d.codeSize)
    case None =>
    case Some((c, r2)) =>
      if c < |d.codeTable| {
        match d.codeTable[c]
        case Range(b, e) =>
          KnownCodeStrictness(d, r, c, r2, b, e, prev, out);
        case Single(_) =>
      } else if c == |d.codeTable| {
        NewCodeStrictness(d, r, c, r2, prev, out);
      }
  }

  lemma KnownCodeStrictness(d: Decompressor, r: CodeReader, c: nat, r2: CodeReader, b: nat, e: nat,
                            prev: nat, out: seq<nat>)
    requires Valid(d) && r.Valid() && AllBelow(out, d.clearCode)
    requires Read(r, d.codeSize) == Some((c, r2))
    requires HasEntry(d, c) && d.codeTable[c] == Range(b, e)
    ensures KnownCode(d, r, c, r2, b, e, prev, out, false) == KnownCode(d, r, c, r2, b, e, prev, out, true)
  {
  }

  lemma NewCodeStrictness(d: Decompressor, r: CodeReader, c: nat, r2: CodeReader, prev: nat, out: seq<nat>)
    requires Valid(d) && r.Valid() && AllBelow(out, d.clearCode)
    requires Read(r, d.codeSize) == Some((c, r2)) && c == |d.codeTable|
    ensures NewCode(d, r, c, r2, prev, out, false) == NewCode(d, r, c, r2, prev, out, true)
  {
  }

  lemma {:induction false} LoopAgreement(d: Decompressor, r: CodeReader, prev: nat, out: seq<nat>)
    requires Valid(d) && r.Valid() && AllBelow(out, d.clearCode)
    ensures BeyondTable(Loop(d, r, prev, out, true)) || Loop(d, r, prev, out, false) == Loop(d, r, prev, out, true)
    decreases r.Remaining()
  {
    StepAgreement(d, r, prev, out);
    match DecodeStep(d, r, prev, out, true)
    case Continue(d2, r2, c, out2) =>
      LoopAgreement(d2, r2, c, out2);
    case Finish(_) =>
    case Fail(_) =>
  }

  lemma RoundAgreement(d: Decompressor, r: CodeReader, out: seq<nat>)
    requires Valid(d) && r.Valid() && AllBelow(out, d.clearCode)
    ensures BeyondTable(DecompressUntilClear(d, r, out, true))
         || DecompressUntilClear(d, r, out, false) == DecompressUntilClear(d, r, out, true)
  {
    match Read(r, d.codeSize)
    case None =>
    case Some((c, r2)) =>
      if c < |d.codeTable| && d.codeTable[c].Range? {
        var e := d.codeTable[c];
        assert d.codeValues[e.begin..e.end] == Entry(d, c);
        LoopAgreement(d, r2, c, out + Entry(d, c));
      }
  }

  lemma {:induction false} RoundsAgreement(min: nat, r: CodeReader, out: seq<nat>)
    requires SupportedMinCodeSize(min) && r.Valid() && AllBelow(out, Pow2(min))
    ensures BeyondTable(Rounds(min, r, out, true)) || Rounds(min, r, out, false) == Rounds(min, r, out, true)
    decreases r.Remaining()
  {
    var d := Reset(New(min));
    RoundAgreement(d, r, out);
    match DecompressUntilClear(d, r, out, true)
    case Err(_) =>
    case Ok(Round(more, r2, out2)) =>
      if more {
        RoundsAgreement(min, r2, out2);
      }
  }

  /** The decoder as written and the corrected one give the same result on
      every input, except those the corrected one rejects for a code beyond
      the table. */
  lemma AsWrittenAgrees(data: seq<byte>, min: nat)
    requires SupportedMinCodeSize(min)
    ensures BeyondTable(Decompress(data, min)) || DecompressAsWritten(data, min) == Decompress(data, min)
  {
    match ExpectClearCode(New(min), NewReader(data))
    case Err(_) =>
    case Ok(r) =>
      RoundsAgreement(min, r, []);
  }

  // ---------------------------------------------------------------------
  // A two-byte stream at minimum code size 2 (clear code 4, end code 5,
  // three-bit codes). [196, 11] holds the codes 4 0 7 5: after the clear
  // code and the literal 0 the table has six entries, so 7 skips slot 6.
  // [132, 11] holds 4 0 6 5, the same stream naming slot 6 properly.

  const SkippingStream: seq<byte> := [196, 11]
  const ProperStream: seq<byte> := [132, 11]

  /** The three-bit code at bit `p` of a stream whose little-endian value is `n`. */
  lemma StreamCode(d: seq<byte>, n: nat, p: nat, v: nat)
    requires p + 3 <= 8 * |d| && LittleEndian(d) == n && n / Pow2(p) % 8 == v
    ensures BitsValue(d, p, 3) == v
  {
    assert Pow2(3) == 8;
    BitsValueLittleEndian(d, p, 3);
    FieldIsDivMod(n, p, 3);
  }

  lemma TwoBytes(d: seq<byte>)
    requires |d| == 2
    ensures LittleEndian(d) == (d[0] as int) + 256 * (d[1] as int)
  {
    assert LittleEndian(d[1..][1..]) == 0;
  }

  /** The opening clear code of a stream at minimum code size 2. */
  lemma OpensWithClear(d: seq<byte>)
    requires 6 <= 8 * |d| && BitsValue(d, 0, 3) == 4
    ensures ExpectClearCode(New(2), NewReader(d)).Ok?
    ensures ExpectClearCode(New(2), NewReader(d)).value.Position() == 3
  {
    assert Pow2(2) == 4;
  }

  /** After the clear code, the literal 0 opens the round. */
  lemma OpensWithLiteral(d0: Decompressor, r1: CodeReader, strict: bool)
    requires d0 == Reset(New(2)) && r1.Valid()
    requires Read(r1, 3).Some? && Read(r1, 3).value.0 == 0
    ensures DecompressUntilClear(d0, r1, [], strict) == Loop(d0, Read(r1, 3).value.1, 0, [0], strict)
  {
    assert Pow2(2) == 4;
    assert HasEntry(d0, 0) && Entry(d0, 0) == [0];
    assert d0.codeSize == 3 && 0 < |d0.codeTable| && d0.codeTable[0].Range?;
    var e := d0.codeTable[0];
    assert [] + d0.codeValues[e.begin..e.end] == [0];
  }

  /** The rest of the round: the code `c` after the literal, then END. */
  lemma ShortLoop(d0: Decompressor, r2: CodeReader, c: nat, strict: bool)
    requires d0 == Reset(New(2)) && r2.Valid()
    requires Read(r2, 3).Some? && Read(r2, 3).value.0 == c && 6 <= c < 8
    requires Read(r2, 3).value.1.Position() < 8 * |r2.data|
    requires Read(r2, 3).value.1.Position() + 3 <= 8 * |r2.data|
    requires BitsValue(r2.data, Read(r2, 3).value.1.Position(), 3) == 5
    ensures strict && c == 7 ==> Loop(d0, r2, 0, [0], strict) == Err(CodeBeyondTable(7))
    ensures !strict || c == 6 ==> Loop(d0, r2, 0, [0], strict).Ok?
    ensures !strict || c == 6 ==> Loop(d0, r2, 0, [0], strict).value.output == [0, 0, 0]
    ensures !strict || c == 6 ==> !Loop(d0, r2, 0, [0], strict).value.more
  {
    assert Pow2(2) == 4;
    var s := DecodeStep(d0, r2, 0, [0], strict);
    if strict && c == 7 {
      assert s == Fail(CodeBeyondTable(7));
    } else {
      ShortStreamGrows(d0, r2, c, strict);
      var r3 := s.reader;
      assert Read(r3, 3).Some? && Read(r3, 3).value.0 == 5;
      assert DecodeStep(s.dec, r3, c, [0, 0, 0], strict) == Finish(Round(false, Read(r3, 3).value.1, [0, 0, 0]));
    }
  }

  /** Decoding a two-byte, four-code stream at minimum code size 2 whose
      codes are CLEAR, 0, `c` and END, with `c` at least the next free slot. */
  lemma ShortStream(d: seq<byte>, c: nat, strict: bool)
    requires |d| == 2 && 6 <= c < 8
    requires BitsValue(d, 0, 3) == 4 && BitsValue(d, 3, 3) == 0
    requires BitsValue(d, 6, 3) == c && BitsValue(d, 9, 3) == 5
    ensures strict && c == 7 ==> DecompressWith(d, 2, strict) == Err(CodeBeyondTable(7))
    ensures !strict || c == 6 ==> DecompressWith(d, 2, strict) == Ok([0, 0, 0])
  {
    OpensWithClear(d);
    var r1 := ExpectClearCode(New(2), NewReader(d)).value;
    var d0 := Reset(New(2));
    var r2 := Read(r1, 3).value.1;
    OpensWithLiteral(d0, r1, strict);
    ShortLoop(d0, r2, c, strict);
  }

  /** The pass on the code after the literal 0 adds the entry [0, 0] and
      emits it. */
  lemma ShortStreamGrows(d0: Decompressor, r2: CodeReader, c: nat, strict: bool)
    requires d0 == Reset(New(2)) && r2.Valid()
    requires Read(r2, 3).Some? && Read(r2, 3).value.0 == c && 6 <= c < 8 && (strict ==> c == 6)
    ensures DecodeStep(d0, r2, 0, [0], strict).Continue?
    ensures DecodeStep(d0, r2, 0, [0], strict).output == [0, 0, 0]
    ensures DecodeStep(d0, r2, 0, [0], strict).dec.clearCode == 4
    ensures DecodeStep(d0, r2, 0, [0], strict).dec.codeSize == 3
  {
    assert Pow2(2) == 4 && Pow2(3) == 8;
    assert HasEntry(d0, 0) && Entry(d0, 0) == [0];
    var s := DecodeStep(d0, r2, 0, [0], strict);
    assert d0.codeValues[0..1] == [0];
    assert AddEntry(d0, [0, 0]).Some?;
    assert s == NewCode(d0, r2, c, Read(r2, 3).value.1, 0, [0], strict);
    assert s.Continue?;
    var e := Entry(s.dec, 6);
    assert e == [0] + [e[0]];
  }

  /** The codes of the skipping stream. */
  lemma SkippingCodes(d: seq<byte>)
    requires |d| == 2 && d[0] == 196 && d[1] == 11
    ensures BitsValue(d, 0, 3) == 4 && BitsValue(d, 3, 3) == 0
    ensures BitsValue(d, 6, 3) == 7 && BitsValue(d, 9, 3) == 5
  {
    TwoBytes(d);
    assert Pow2(3) == 8 && Pow2(6) == 64 && Pow2(9) == 512;
    StreamCode(d, 3012, 0, 4);
    StreamCode(d, 3012, 3, 0);
    StreamCode(d, 3012, 6, 7);
    StreamCode(d, 3012, 9, 5);
  }

  /** The codes of the proper stream. */
  lemma ProperCodes(d: seq<byte>)
    requires |d| == 2 && d[0] == 132 && d[1] == 11
    ensures BitsValue(d, 0, 3) == 4 && BitsValue(d, 3, 3) == 0
    ensures BitsValue(d, 6, 3) == 6 && BitsValue(d, 9, 3) == 5
  {
    TwoBytes(d);
    assert Pow2(3) == 8 && Pow2(6) == 64 && Pow2(9) == 512;
    StreamCode(d, 2948, 0, 4);
    StreamCode(d, 2948, 3, 0);
    StreamCode(d, 2948, 6, 6);
    StreamCode(d, 2948, 9, 5);
  }

  /** The decoder as written accepts the skipping stream: the code 7 is decoded
      as if it named the free slot 6. */
  lemma AsWrittenAcceptsSkippedSlot()
    ensures DecompressAsWritten(SkippingStream, 2) == Ok([0, 0, 0])
  {
    var d := SkippingStream;
    SkippingCodes(d);
    ShortStream(d, 7, false);
  }

  /** The corrected decoder rejects the skipping stream. */
  lemma CorrectedRejectsSkippedSlot()
    ensures Decompress(SkippingStream, 2) == Err(CodeBeyondTable(7))
  {
    var d := SkippingStream;
    SkippingCodes(d);
    ShortStream(d, 7, true);
  }

  /** The corrected decoder still decodes the next free code (KwKwK). */
  lemma CorrectedAcceptsNextSlot()
    ensures Decompress(ProperStream, 2) == Ok([0, 0, 0])
  {
    var d := ProperStream;
    ProperCodes(d);
    ShortStream(d, 6, true);
  }
}

=== FILE: lzw_reference.dfy ===
/** A string-dictionary formulation of the same decoder: the string table is
    a list of strings and each code is looked up directly, where the
    decompressor model keeps ranges into one flat sequence of indices. It
    follows the same rules as src/decompressor.rs (a literal first after each
    clear code, and a clear code demanded once the table holds 4095 entries
    at width 12), and the lemma at the end shows that the two decode every
    input alike. */
module LzwReference {
  import opened Results
  import opened Bits
  import opened CodeReading
  import opened Lzw

  /** Code `i` stands for `dict[i]`; the clear and end codes hold empty
      placeholders. `width` is the current code width. */
  datatype Table = Table(clear: nat, dict: seq<seq<nat>>, width: nat)

  predicate WellFormed(t: Table) {
    && 1 <= t.width <= MaxCodeSize
    && t.clear + 2 <= |t.dict|
    && forall i :: 0 <= i < |t.dict| && i != t.clear && i != t.clear + 1 ==> |t.dict[i]| >= 1
  }

  /** The table after a clear code: one single-index string per colour. */
  function InitialTable(min: nat): (t: Table)
    requires SupportedMinCodeSize(min)
    ensures WellFormed(t) && t.clear == Pow2(min) && t.width == min + 1
    ensures |t.dict| == Pow2(min) + 2
    ensures forall i :: 0 <= i < t.clear ==> t.dict[i] == [i]
  {
    var clear := Pow2(min);
    Table(clear, seq(clear, (i: nat) => [i]) + [[], []], min + 1)
  }

  datatype Outcome =
    | More(table: Table, reader: CodeReader, prev: seq<nat>, output: seq<nat>)
    | Done(round: Round)
    | Failed(error: DecodeError)

  /** Record `entry` as the next code. The width grows once the new code is
      the largest the current width can name; at twelve bits the table is
      full and the stream must clear it next. */
  function Add(t: Table, r: CodeReader, cur: seq<nat>, entry: seq<nat>, out: seq<nat>): (u: Outcome)
    requires WellFormed(t) && r.Valid() && |cur| >= 1 && |entry| >= 1
    ensures u.More? ==> WellFormed(u.table) && u.reader == r && u.prev == cur
    ensures u.Done? ==> u.round.more && u.round.reader.Valid() && u.round.reader.data == r.data
                        && u.round.reader.Position() > r.Position()
  {
    var dict := t.dict + [entry];
    if |t.dict| + 1 != Pow2(t.width) then
      More(Table(t.clear, dict, t.width), r, cur, out)
    else if t.width < MaxCodeSize then
      More(Table(t.clear, dict, t.width + 1), r, cur, out)
    else
      match Read(r, t.width)
      case None => Failed(MissingClearCode)
      case Some((c, r2)) =>
        if c == t.clear then Done(Round(true, r2, out)) else Failed(InvalidClearCode(c))
  }

  /** Decode one code after the string `prev`. A known code emits its string;
      the next free code emits `prev` extended by its own first index; either
      way `prev` extended by the first emitted index becomes a new code. */
  function Step(t: Table, r: CodeReader, prev: seq<nat>, out: seq<nat>): (u: Outcome)
    requires WellFormed(t) && r.Valid() && |prev| >= 1
    ensures u.More? ==> WellFormed(u.table) && |u.prev| >= 1 && u.reader.Valid()
                        && u.reader.data == r.data && u.reader.Position() > r.Position()
    ensures u.Done? ==> u.round.reader.Valid() && u.round.reader.data == r.data
                        && u.round.reader.Position() >= r.Position()
                        && (u.round.more ==> u.round.reader.Position() > r.Position())
  {
    match Read(r, t.width)
    case None => Done(Round(false, r, out))
    case Some((c, r2)) =>
      if c == t.clear then
        Done(Round(true, r2, out))
      else if c == t.clear + 1 then
        Done(Round(false, r2, out))
      else if c > |t.dict| then
        Failed(CodeBeyondTable(c))
      else
        var cur := if c < |t.dict| then t.dict[c] else prev + [prev[0]];
        Add(t, r2, cur, prev + [cur[0]], out + cur)
  }

  function RunLoop(t: Table, r: CodeReader, prev: seq<nat>, out: seq<nat>): (o: Result<Round, DecodeError>)
    requires WellFormed(t) && r.Valid() && |prev| >= 1
    ensures o.Ok? ==> o.value.reader.Valid() && o.value.reader.data == r.data
                      && (o.value.more ==> o.value.reader.Position() > r.Position())
    decreases r.Remaining()
  {
    match Step(t, r, prev, out)
    case More(t2, r2, prev2, out2) => RunLoop(t2, r2, prev2, out2)
    case Done(round) => Ok(round)
    case Failed(e) => Err(e)
  }

  /** A run between two clear codes; it must open with a literal index. */
  function RunRound(min: nat, r: CodeReader, out: seq<nat>): (o: Result<Round, DecodeError>)
    requires SupportedMinCodeSize(min) && r.Valid()
    ensures o.Ok? ==> o.value.reader.Valid() && o.value.reader.data == r.data
                      && (o.value.more ==> o.value.reader.Position() > r.Position())
  {
    var t := InitialTable(min);
    match Read(r, t.width)
    case None => Ok(Round(false, r, out))
    case Some((c, r2)) =>
      if c < t.clear then RunLoop(t, r2, [c], out + [c]) else Err(InvalidCode(c))
  }

  function RunRounds(min: nat, r: CodeReader, out: seq<nat>): (o: Result<seq<nat>, DecodeError>)
    requires SupportedMinCodeSize(min) && r.Valid()
    decreases r.Remaining()
  {
    match RunRound(min, r, out)
    case Err(e) => Err(e)
    case Ok(Round(more, r2, out2)) => if more then RunRounds(min, r2, out2) else Ok(out2)
  }

  /** Decode a code stream that opens with a clear code. */
  function Decode(data: seq<byte>, min: nat): (o: Result<seq<nat>, DecodeError>)
    requires SupportedMinCodeSize(min)
  {
    match Read(NewReader(data), min + 1)
    case None => Err(MissingClearCode)
    case Some((c, r)) =>
      if c != Pow2(min) then Err(InvalidClearCode(c)) else RunRounds(min, r, [])
  }

  // ---------------------------------------------------------------------
  // The decompressor model decodes as the reference does.

  /** The range-based table `d` spells out the string table `t`. */
  ghost predicate Simulates(d: Decompressor, t: Table) {
    && Valid(d)
    && t.clear == d.clearCode
    && t.width == d.codeSize
    && |t.dict| == |d.codeTable|
    && forall i: nat :: HasEntry(d, i) ==> t.dict[i] == Entry(d, i)
  }

  lemma SimulatesWellFormed(d: Decompressor, t: Table)
    requires Simulates(d, t)
    ensures WellFormed(t)
  {
    forall i | 0 <= i < |t.dict| && i != t.clear && i != t.clear + 1
      ensures |t.dict[i]| >= 1
    {
      assert HasEntry(d, i);
    }
  }

  /** One pass of each decoder ends the same way, and when both go on, the
      new states correspond again. */
  ghost predicate StepAgrees(s: Step, u: Outcome) {
    match s
    case Continue(d2, r2, c, out2) =>
      && u.More? && u.reader == r2 && u.output == out2
      && Simulates(d2, u.table) && HasEntry(d2, c) && u.prev == Entry(d2, c)
    case Finish(round) => u == Done(round)
    case Fail(e) => u == Failed(e)
  }

  /** The string a pass emits for a code no greater than the table length. */
  function Emitted(d: Decompressor, c: nat, prev: nat): (s: seq<nat>)
    requires Valid(d) && HasEntry(d, prev) && c <= |d.codeTable| && !d.IsControl(c)
    ensures |s| >= 1 && AllBelow(s, d.clearCode)
    ensures c == |d.codeTable| ==> s == Entry(d, prev) + [Entry(d, prev)[0]]
    ensures c < |d.codeTable| ==> s == Entry(d, c)
  {
    if c < |d.codeTable| then Entry(d, c) else Entry(d, prev) + [Entry(d, prev)[0]]
  }

  /** A pass of the strict decompressor on an ordinary code is `Extend` with
      the emitted string and the new entry it implies. */
  lemma StepIsExtend(d: Decompressor, r: CodeReader, prev: nat, out: seq<nat>, c: nat, r2: CodeReader)
    requires Valid(d) && r.Valid() && AllBelow(out, d.clearCode) && HasEntry(d, prev)
    requires Read(r, d.codeSize) == Some((c, r2))
    requires c <= |d.codeTable| && !d.IsControl(c)
    ensures DecodeStep(d, r, prev, out, true)
         == Extend(d, r2, c, out + Emitted(d, c, prev), Entry(d, prev) + [Emitted(d, c, prev)[0]])
  {
    if c < |d.codeTable| {
      var e := d.codeTable[c];
      KnownIsExtend(d, r, c, r2, e.begin, e.end, prev, out);
    } else {
      NewIsExtend(d, r, c, r2, prev, out);
    }
  }

  lemma KnownIsExtend(d: Decompressor, r: CodeReader, c: nat, r2: CodeReader, b: nat, e: nat,
                      prev: nat, out: seq<nat>)
    requires Valid(d) && r.Valid() && AllBelow(out, d.clearCode) && HasEntry(d, prev)
    requires Read(r, d.codeSize) == Some((c, r2))
    requires HasEntry(d, c) && d.codeTable[c] == Range(b, e)
    ensures DecodeStep(d, r, prev, out, true) == KnownCode(d, r, c, r2, b, e, prev, out, true)
    ensures KnownCode(d, r, c, r2, b, e, prev, out, true)
         == Extend(d, r2, c, out + Entry(d, c), Entry(d, prev) + [Entry(d, c)[0]])
  {
    var p := d.codeTable[prev];
    assert d.codeValues[p.begin..p.end] == Entry(d, prev);
    assert d.codeValues[b..e] == Entry(d, c);
  }

  lemma NewIsExtend(d: Decompressor, r: CodeReader, c: nat, r2: CodeReader, prev: nat, out: seq<nat>)
    requires Valid(d) && r.Valid() && AllBelow(out, d.clearCode) && HasEntry(d, prev)
    requires Read(r, d.codeSize) == Some((c, r2))
    requires c == |d.codeTable|
    ensures DecodeStep(d, r, prev, out, true) == NewCode(d, r, c, r2, prev, out, true)
    ensures NewCode(d, r, c, r2, prev, out, true)
         == Extend(d, r2, c, out + Emitted(d, c, prev), Entry(d, prev) + [Emitted(d, c, prev)[0]])
  {
    var p := d.codeTable[prev];
    assert d.codeValues[p.begin..p.end] == Entry(d, prev);
  }

  /** Adding the same entry to corresponding tables ends the same way. */
  lemma ExtendAgrees(d: Decompressor, t: Table, r2: CodeReader, c: nat, cur: seq<nat>,
                     entry: seq<nat>, out2: seq<nat>)
    requires Simulates(d, t) && r2.Valid()
    requires |cur| >= 1 && |entry| >= 1 && AllBelow(entry, d.clearCode)
    requires c <= |d.codeTable| && !d.IsControl(c)
    requires c < |d.codeTable| ==> Entry(d, c) == cur
    requires c == |d.codeTable| ==> entry == cur
    ensures WellFormed(t)
    ensures StepAgrees(Extend(d, r2, c, out2, entry), Add(t, r2, cur, entry, out2))
  {
    SimulatesWellFormed(d, t);
    match AddEntry(d, entry)
    case None =>
      FullAgrees(d, t, r2, c, cur, entry, out2);
    case Some(d2) =>
      GrownAgrees(d, t, d2, r2, c, cur, entry, out2);
  }

  /** A full table at the widest code size: both expect the clear code. */
  lemma FullAgrees(d: Decompressor, t: Table, r2: CodeReader, c: nat, cur: seq<nat>,
                   entry: seq<nat>, out2: seq<nat>)
    requires Simulates(d, t) && WellFormed(t) && r2.Valid()
    requires |cur| >= 1 && |entry| >= 1 && AllBelow(entry, d.clearCode)
    requires AddEntry(d, entry).None?
    ensures StepAgrees(Extend(d, r2, c, out2, entry), Add(t, r2, cur, entry, out2))
  {
    assert |t.dict| + 1 == Pow2(t.width) && t.width == MaxCodeSize;
  }

  lemma GrownAgrees(d: Decompressor, t: Table, d2: Decompressor, r2: CodeReader, c: nat,
                    cur: seq<nat>, entry: seq<nat>, out2: seq<nat>)
    requires Simulates(d, t) && r2.Valid() && WellFormed(t)
    requires |cur| >= 1 && |entry| >= 1 && AllBelow(entry, d.clearCode)
    requires c <= |d.codeTable| && !d.IsControl(c)
    requires c < |d.codeTable| ==> Entry(d, c) == cur
    requires c == |d.codeTable| ==> entry == cur
    requires AddEntry(d, entry) == Some(d2)
    ensures Extend(d, r2, c, out2, entry) == Continue(d2, r2, c, out2)
    ensures StepAgrees(Continue(d2, r2, c, out2), Add(t, r2, cur, entry, out2))
  {
    var u := Add(t, r2, cur, entry, out2);
    assert u.More? && u.table.dict == t.dict + [entry] && u.table.width == d2.codeSize;
    forall i: nat | HasEntry(d2, i)
      ensures u.table.dict[i] == Entry(d2, i)
    {
      if i < |d.codeTable| {
        assert HasEntry(d, i);
      }
    }
    assert HasEntry(d2, c) && Entry(d2, c) == cur;
  }

  /** One pass of the strict decompressor matches one reference step. */
  lemma StepSimulation(d: Decompressor, t: Table, r: CodeReader, prev: nat, out: seq<nat>)
    requires Simulates(d, t) && r.Valid() && HasEntry(d, prev) && AllBelow(out, d.clearCode)
    ensures WellFormed(t)
    ensures StepAgrees(DecodeStep(d, r, prev, out, true), Step(t, r, Entry(d, prev), out))
  {
    SimulatesWellFormed(d, t);
    match Read(r, d.codeSize)
    case None =>
    case Some((c, r2)) =>
      if !d.IsControl(c) && c <= |d.codeTable| {
        var cur := Emitted(d, c, prev);
        StepIsExtend(d, r, prev, out, c, r2);
        if c < |d.codeTable| {
          assert HasEntry(d, c);
        }
        ExtendAgrees(d, t, r2, c, cur, Entry(d, prev) + [cur[0]], out + cur);
      }
  }

  /** The loop of the strict decompressor is the reference loop. */
  lemma {:induction false} LoopSimulation(d: Decompressor, t: Table, r: CodeReader, prev: nat, out: seq<nat>)
    requires Simulates(d, t) && r.Valid() && HasEntry(d, prev) && AllBelow(out, d.clearCode)
    ensures WellFormed(t)
    ensures Loop(d, r, prev, out, true) == RunLoop(t, r, Entry(d, prev), out)
    decreases r.Remaining()
  {
    StepSimulation(d, t, r, prev, out);
    match DecodeStep(d, r, prev, out, true)
    case Continue(d2, r2, c, out2) =>
      var u := Step(t, r, Entry(d, prev), out);
      LoopSimulation(d2, u.table, r2, c, out2);
    case Finish(_) =>
    case Fail(_) =>
  }

  /** A freshly reset table spells out the initial string table. */
  lemma ResetSimulates(min: nat)
    requires SupportedMinCodeSize(min)
    ensures Simulates(Reset(New(min)), InitialTable(min))
  {
    var d := Reset(New(min));
    var t := InitialTable(min);
    forall i: nat | HasEntry(d, i)
      ensures t.dict[i] == Entry(d, i)
    {
      assert i < d.clearCode;
    }
  }

  lemma RoundSimulation(min: nat, r: CodeReader, out: seq<nat>)
    requires SupportedMinCodeSize(min) && r.Valid() && AllBelow(out, Pow2(min))
    ensures DecompressUntilClear(Reset(New(min)), r, out, true) == RunRound(min, r, out)
  {
    var d := Reset(New(min));
    var t := InitialTable(min);
    ResetSimulates(min);
    match Read(r, d.codeSize)
    case None =>
    case Some((c, r2)) =>
      if c < t.clear {
        var e := d.codeTable[c];
        assert d.codeValues[e.begin..e.end] == Entry(d, c) == [c];
        LoopSimulation(d, t, r2, c, out + [c]);
      } else {
        assert !HasEntry(d, c);
      }
  }

  lemma {:induction false} RoundsSimulation(min: nat, r: CodeReader, out: seq<nat>)
    requires SupportedMinCodeSize(min) && r.Valid() && AllBelow(out, Pow2(min))
    ensures Rounds(min, r, out, true) == RunRounds(min, r, out)
    decreases r.Remaining()
  {
    RoundSimulation(min, r, out);
    match RunRound(min, r, out)
    case Err(_) =>
    case Ok(Round(more, r2, out2)) =>
      if more {
        RoundsSimulation(min, r2, out2);
      }
  }

  /** The decompressor (with codes beyond the table rejected) and the
      string-dictionary decoder agree on every input. */
  lemma DecompressIsReference(data: seq<byte>, min: nat)
    requires SupportedMinCodeSize(min)
    ensures Decompress(data, min) == Decode(data, min)
  {
    match Read(NewReader(data), min + 1)
    case None =>
    case Some((c, r)) =>
      if c == Pow2(min) {
        RoundsSimulation(min, r, []);
      }
  }
}

=== FILE: results.dfy ===
/** Failure-compatible wrappers shared by the decoder and the parser: the Rust
    code's `Option` and `Result` return types. Both work with Dafny's `:-`. */
module Results {

  datatype Option<+T> = None | Some(value: T) {

    predicate IsFailure() {
      None?
    }

    function PropagateFailure<U>(): Option<U>
      requires None?
    {
      None
    }

    function Extract(): T
      requires Some?
    {
      value
    }
  }

  datatype Result<+T, +E> = Ok(value: T) | Err(error: E) {

    predicate IsFailure() {
      Err?
    }

    function PropagateFailure<U>(): Result<U, E>
      requires Err?
    {
      Err(error)
    }

    function Extract(): T
      requires Ok?
    {
      value
    }
  }
}

=== FILE: sub_blocks.dfy ===
/** Data sub-blocks (`read_data_sub_blocks`): a run of blocks, each a size
    byte followed by that many data bytes, ended by a block of size zero.
    The reader returns the data of all blocks joined in order. */
module SubBlocks {
  import opened Results
  import opened Bits
  import opened ByteCursor

  function ReadDataSubBlocks(input: seq<byte>): (o: Result<Parsed<seq<byte>>, ParseError>)
    ensures o.Ok? ==> |o.value.rest| < |input|
    ensures o.Err? ==> o.error == UnexpectedEof
    decreases |input|
  {
    var size :- ReadU8(input);
    if size.value == 0 then Ok(Parsed([], size.rest))
    else
      var chunk :- ReadBytes(size.rest, size.value);
      var more :- ReadDataSubBlocks(chunk.rest);
      Ok(Parsed(chunk.value + more.value, more.rest))
  }

  /** A sub-block holds between 1 and 255 data bytes. */
  predicate ValidChunks(chunks: seq<seq<byte>>) {
    forall i :: 0 <= i < |chunks| ==> 1 <= |chunks[i]| <= 255
  }

  /** The sub-blocks holding `chunks`, with the terminating empty block. */
  function EncodeSubBlocks(chunks: seq<seq<byte>>): (s: seq<byte>)
    requires ValidChunks(chunks)
    ensures |s| == SubBlocksLength(chunks)
  {
    if |chunks| == 0 then [0]
    else [|chunks[0]|] + chunks[0] + EncodeSubBlocks(chunks[1..])
  }

  /** The bytes taken by sub-blocks: each chunk plus its size byte, plus the
      terminator. */
  function SubBlocksLength(chunks: seq<seq<byte>>): nat {
    if |chunks| == 0 then 1 else |chunks[0]| + 1 + SubBlocksLength(chunks[1..])
  }

  function Flatten(chunks: seq<seq<byte>>): seq<byte> {
    if |chunks| == 0 then [] else chunks[0] + Flatten(chunks[1..])
  }

  /** Reading back what was encoded gives the joined data and leaves the
      bytes after the terminator unread. */
  lemma {:induction false} SubBlocksRoundTrip(chunks: seq<seq<byte>>, rest: seq<byte>)
    requires ValidChunks(chunks)
    ensures ReadDataSubBlocks(EncodeSubBlocks(chunks) + rest) == Ok(Parsed(Flatten(chunks), rest))
    decreases |chunks|
  {
    var input := EncodeSubBlocks(chunks) + rest;
    if |chunks| == 0 {
      assert input == [0] + rest;
      ReadU8RoundTrip(0, rest);
    } else {
      var c := chunks[0];
      var tail := EncodeSubBlocks(chunks[1..]) + rest;
      assert input == [|c| as byte] + (c + tail);
      ReadU8RoundTrip(|c|, c + tail);
      ReadBytesRoundTrip(c, tail);
      SubBlocksRoundTrip(chunks[1..], rest);
    }
  }

  /** The chunks a successful read went through, one per non-empty block. */
  ghost function ChunksRead(input: seq<byte>): (chunks: seq<seq<byte>>)
    requires ReadDataSubBlocks(input).Ok?
    ensures ValidChunks(chunks)
    decreases |input|
  {
    var n := input[0];
    if n == 0 then [] else [input[1..][..n]] + ChunksRead(input[1..][n..])
  }

  /** One non-empty block read, then the rest. */
  lemma ReadNonEmptyBlock(input: seq<byte>)
    requires ReadDataSubBlocks(input).Ok? && input[0] != 0
    ensures var n := input[0];
      ReadDataSubBlocks(input[1..][n..]).Ok? &&
      ReadDataSubBlocks(input).value ==
        Parsed(input[1..][..n] + ReadDataSubBlocks(input[1..][n..]).value.value,
               ReadDataSubBlocks(input[1..][n..]).value.rest)
  {
  }

  /** Every successful read consumed exactly the encoding of the chunks it
      read, so it took the sizes plus one byte per block and the terminator. */
  lemma {:induction false} SubBlocksReadEncoded(input: seq<byte>)
    requires ReadDataSubBlocks(input).Ok?
    ensures EncodeSubBlocks(ChunksRead(input)) + ReadDataSubBlocks(input).value.rest == input
    decreases |input|
  {
    var n := input[0];
    if n == 0 {
      assert input == [0] + input[1..];
    } else {
      var after := input[1..][n..];
      ReadNonEmptyBlock(input);
      SubBlocksReadEncoded(after);
      assert input == [n] + input[1..][..n] + after;
      EncodeFirst(ChunksRead(input), ReadDataSubBlocks(input).value.rest);
    }
  }

  lemma EncodeFirst(chunks: seq<seq<byte>>, rest: seq<byte>)
    requires ValidChunks(chunks) && |chunks| > 0
    ensures EncodeSubBlocks(chunks) + rest == [|chunks[0]| as byte] + chunks[0] + (EncodeSubBlocks(chunks[1..]) + rest)
  {
  }

  /** The data a successful read returns is the chunks it read, joined. */
  lemma {:induction false} SubBlocksReadJoined(input: seq<byte>)
    requires ReadDataSubBlocks(input).Ok?
    ensures Flatten(ChunksRead(input)) == ReadDataSubBlocks(input).value.value
    decreases |input|
  {
    if input[0] != 0 {
      var after := input[1..][input[0]..];
      ReadNonEmptyBlock(input);
      SubBlocksReadJoined(after);
      assert ChunksRead(input)[1..] == ChunksRead(after);
    }
  }

  /** A cut-short encoding is always an unexpected end of input. */
  lemma {:induction false} SubBlocksTruncated(chunks: seq<seq<byte>>, k: nat)
    requires ValidChunks(chunks)
    requires k < |EncodeSubBlocks(chunks)|
    ensures ReadDataSubBlocks(EncodeSubBlocks(chunks)[..k]) == Err(UnexpectedEof)
    decreases |chunks|
  {
    var e := EncodeSubBlocks(chunks);
    var cut := e[..k];
    if k > 0 {
      var c := chunks[0];
      assert cut[0] == |c|;
      if k - 1 >= |c| {
        var tail := EncodeSubBlocks(chunks[1..]);
        assert e == [|c| as byte] + c + tail;
        assert cut[1..][|c|..] == tail[..k - 1 - |c|];
        SubBlocksTruncated(chunks[1..], k - 1 - |c|);
      }
    }
  }

  /** Splitting data into sub-blocks of at most 255 bytes. */
  function Chunked(data: seq<byte>): (chunks: seq<seq<byte>>)
    ensures ValidChunks(chunks) && Flatten(chunks) == data
    decreases |data|
  {
    if |data| == 0 then []
    else if |data| <= 255 then [data]
    else
      var chunks := [data[..255]] + Chunked(data[255..]);
      assert chunks[1..] == Chunked(data[255..]);
      chunks
  }
}

=== FILE: utf8.dfy ===
/** Well-formed UTF-8, the check `String::from_utf8` and `str::from_utf8`
    apply to the header's signature and version and to the text of comment,
    plain-text and application blocks. The definition follows Table 3-7 of
    the Unicode Standard (the same byte ranges as section 4 of RFC 3629):
    no overlong forms, no surrogates, nothing above U+10FFFF. */
module Utf8 {
  import opened Bits

  predicate IsContinuation(b: byte) {
    0x80 <= b <= 0xBF
  }

  /** The number of bytes of the well-formed sequence for one scalar value
      at the start of `s`, or 0 when `s` does not start with one. */
  function CharLength(s: seq<byte>): (n: nat)
    requires |s| >= 1
    ensures n <= 4 && n <= |s|
    ensures s[0] < 0x80 <==> n == 1
  {
    var b := s[0];
    if b < 0x80 then 1
    else if 0xC2 <= b <= 0xDF then
      if |s| >= 2 && IsContinuation(s[1]) then 2 else 0
    else if b == 0xE0 then
      if |s| >= 3 && 0xA0 <= s[1] <= 0xBF && IsContinuation(s[2]) then 3 else 0
    else if 0xE1 <= b <= 0xEC || 0xEE <= b <= 0xEF then
      if |s| >= 3 && IsContinuation(s[1]) && IsContinuation(s[2]) then 3 else 0
    else if b == 0xED then
      if |s| >= 3 && 0x80 <= s[1] <= 0x9F && IsContinuation(s[2]) then 3 else 0
    else if b == 0xF0 then
      if |s| >= 4 && 0x90 <= s[1] <= 0xBF && IsContinuation(s[2]) && IsContinuation(s[3]) then 4 else 0
    else if 0xF1 <= b <= 0xF3 then
      if |s| >= 4 && IsContinuation(s[1]) && IsContinuation(s[2]) && IsContinuation(s[3]) then 4 else 0
    else if b == 0xF4 then
      if |s| >= 4 && 0x80 <= s[1] <= 0x8F && IsContinuation(s[2]) && IsContinuation(s[3]) then 4 else 0
    else 0
  }

  /** `s` is a concatenation of well-formed sequences of scalar values. */
  predicate IsUtf8(s: seq<byte>)
    decreases |s|
  {
    |s| == 0 || (CharLength(s) > 0 && IsUtf8(s[CharLength(s)..]))
  }

  predicate IsScalarValue(cp: nat) {
    cp < 0xD800 || (0xE000 <= cp < 0x11_0000)
  }

  /** The UTF-8 encoding of one scalar value, by section 3 of RFC 3629. */
  function EncodeScalar(cp: nat): (s: seq<byte>)
    requires IsScalarValue(cp)
    ensures 1 <= |s| <= 4
  {
    if cp < 0x80 then [cp]
    else if cp < 0x800 then [0xC0 + cp / 64, 0x80 + cp % 64]
    else if cp < 0x1_0000 then [0xE0 + cp / 4096, 0x80 + cp / 64 % 64, 0x80 + cp % 64]
    else [0xF0 + cp / 262144, 0x80 + cp / 4096 % 64, 0x80 + cp / 64 % 64, 0x80 + cp % 64]
  }

  function Encode(cps: seq<nat>): (s: seq<byte>)
    requires forall i :: 0 <= i < |cps| ==> IsScalarValue(cps[i])
  {
    if |cps| == 0 then [] else EncodeScalar(cps[0]) + Encode(cps[1..])
  }

  /** The length the predicate reads for an encoded scalar value is the
      length of its encoding, whatever follows it. */
  lemma EncodedScalarLength(cp: nat, rest: seq<byte>)
    requires IsScalarValue(cp)
    ensures CharLength(EncodeScalar(cp) + rest) == |EncodeScalar(cp)|
  {
    if cp < 0x80 {
    } else if cp < 0x800 {
      TwoByteLength(cp, rest);
    } else if cp < 0x1_0000 {
      ThreeByteLength(cp, rest);
    } else {
      FourByteLength(cp, rest);
    }
  }

  lemma TwoByteLength(cp: nat, rest: seq<byte>)
    requires 0x80 <= cp < 0x800
    ensures CharLength(EncodeScalar(cp) + rest) == 2
  {
    var s := EncodeScalar(cp) + rest;
    assert s[0] == 0xC0 + cp / 64 && s[1] == 0x80 + cp % 64;
    assert 2 <= cp / 64 < 32;
  }

  lemma ThreeByteLength(cp: nat, rest: seq<byte>)
    requires 0x800 <= cp < 0x1_0000 && IsScalarValue(cp)
    ensures CharLength(EncodeScalar(cp) + rest) == 3
  {
    var s := EncodeScalar(cp) + rest;
    assert s[0] == 0xE0 + cp / 4096 && s[1] == 0x80 + cp / 64 % 64 && s[2] == 0x80 + cp % 64;
    assert cp / 4096 < 16;
    if cp < 0x1000 {
      assert 32 <= cp / 64 % 64;
    } else if 0xD000 <= cp < 0xD800 {
      assert cp / 4096 == 13 && cp / 64 % 64 < 32;
    }
  }

  lemma FourByteLength(cp: nat, rest: seq<byte>)
    requires 0x1_0000 <= cp < 0x11_0000
    ensures CharLength(EncodeScalar(cp) + rest) == 4
  {
    var s := EncodeScalar(cp) + rest;
    assert s[0] == 0xF0 + cp / 262144 && s[1] == 0x80 + cp / 4096 % 64;
    assert s[2] == 0x80 + cp / 64 % 64 && s[3] == 0x80 + cp % 64;
    assert cp / 262144 <= 4;
    if cp < 0x4_0000 {
      assert 16 <= cp / 4096 % 64;
    } else if 0x10_0000 <= cp {
      assert cp / 262144 == 4 && cp / 4096 % 64 < 16;
    }
  }

  /** Every encoding of scalar values is well-formed: the predicate accepts
      whatever the encoder produces. */
  lemma {:induction false} EncodeIsUtf8(cps: seq<nat>)
    requires forall i :: 0 <= i < |cps| ==> IsScalarValue(cps[i])
    ensures IsUtf8(Encode(cps))
    decreases |cps|
  {
    if |cps| > 0 {
      var e := EncodeScalar(cps[0]);
      EncodedScalarLength(cps[0], Encode(cps[1..]));
      assert (e + Encode(cps[1..]))[|e|..] == Encode(cps[1..]);
      EncodeIsUtf8(cps[1..]);
    }
  }

  /** Bytes below 0x80 alone are well-formed, one scalar value each. */
  lemma {:induction false} AsciiIsUtf8(s: seq<byte>)
    requires forall i :: 0 <= i < |s| ==> s[i] < 0x80
    ensures IsUtf8(s)
    decreases |s|
  {
    if |s| > 0 {
      AsciiIsUtf8(s[1..]);
    }
  }

  /** A continuation byte cannot begin a sequence; an overlong form and an
      encoded surrogate are rejected. */
  lemma Rejected()
    ensures !IsUtf8([0x80])
    ensures !IsUtf8([0xC0, 0x80])
    ensures !IsUtf8([0xED, 0xA0, 0x80])
    ensures !IsUtf8([0xF4, 0x90, 0x80, 0x80])
  {
  }
}
